=== FILE: README.md ===
# cdata_connect, modelled in Dafny

A model of the client side of `cdata_connect`, a DB-API 2.0 style driver for the
CData Connect HTTP API. The driver is small:

- `connect` picks between a configuration path and explicit credentials and
  builds a `Connection`.
- A `Connection` holds the base URL and credentials and hands out `Cursor`s.
- A `Cursor` posts a query, a batch or a procedure call. It decodes the streamed
  JSON reply into a `schema` (prefix/value pairs) and `rows` (lists of
  scalars), and hands the rows out through `fetchone`, `fetchmany` and `fetchall`.
- Rows are converted column by column with `convert_to_python_type`, which
  dispatches on the column's type tag.

Files:

- `wrappers.dfy`: `Option` and `Result`.
- `text.dfy`: string operations. The driver itself uses substring `in`,
  `endswith`, `str(int)` and lower-casing (of A to Z only). `startswith` serves
  the contracts, and `isspace` is the whitespace strptime's `\s` matches.
- `strptime.dfy`: `datetime.strptime` for the three formats the driver uses.
  Each directive is matched by the same alternatives Python's `_strptime` uses,
  followed by the calendar check. `str(date)` and friends are modelled as well,
  to state round trips.
- `types.dfy`: `convert_to_python_type`, including `int()` on strings (surrounding
  whitespace, which is the six characters of C `isspace`, optional sign, digit groups joined by single underscores).
- `decoder.dfy`: the event fold that `execute`, `executemany` and `callproc`
  each run. It is written as specification functions (`Step`, `Fold`,
  `Decode`) with reference definitions and lemmas about each concern of the fold.
- `client.dfy`: classes `Connection` and `Cursor`. The cursor's fields are
  updated in place, and its loops are proved against the functions above.
- `api.dfy`: `connect` and the module constants `apilevel`, `threadsafety`
  and `paramstyle`.

The HTTP exchange is an argument. Each request method returns the `Request`
it would post and takes the server's `Response`: the status, the body text,
and the `(prefix, event, value)` events an incremental JSON parser yields for
the body. Python exceptions are `Failure`/`Some(error)` values.
`Client.Raised` gives the Python exception class each error stands for, and
the message where the client writes it.

Behaviour of the code worth noting, which the model follows:

- Type tags are compared exactly and case-sensitively. `"integer"` is
  unsupported.
- `fetchall` converts the remaining rows without removing them, although the
  comment at cursor.py:193 says it consumes them.
- `fetchmany(n)` with fewer than `n` rows left pops every row and then fails
  on `pop` from an empty list (IndexError). The `StopIteration` handler at
  cursor.py:202-203, whose comment says it stops when no rows are left,
  never runs.
- `callproc` posts to `/query`.
- `connect(config_path=...)` passes the path positionally. The `Connection`
  therefore gets the path as its base URL, no credentials, and never reads the
  file.

## Model

| member | source | states |
|---|---|---|
| Text.Contains | cursor.py:54 | `t in s`: `t` is a prefix of `s` or of one of its tails |
| Text.ContainsIffOccurs | cursor.py:54 | `t in s` holds exactly when `t` sits at some offset of `s` |
| Text.EndsWith | cursor.py:62 | `s.endswith(p)`: the last `len(p)` characters of `s` are `p` |
| Text.EndsWithIffSuffix | cursor.py:62 | `s.endswith(p)` holds exactly when `s` is some text followed by `p` |
| Text.AsciiLower | util/types.py:14 | lower-casing maps A to Z to a to z and keeps every other character; the length is kept |
| Strptime.ParseDate | util/types.py:15-16 | a parsed date is a real calendar date: year 1 to 9999, month 1 to 12, day within its month |
| Strptime.ParseTime | util/types.py:17-18 | a parsed time has hour below 24, minute below 60 and second below 60 (the format's 60 and 61 are refused) |
| Strptime.ParseTimestamp | util/types.py:19-20 | a parsed timestamp has both a valid date and a valid time of day |
| Strptime.DateParsesIffSpelled | util/types.py:15-16 | `strptime(s, '%Y-%m-%d')` gives `d` exactly when `d` is a valid date and all of `s` spells it: four-digit year, month as two digits or one, day as two digits, one digit or a blank and one digit, hyphens between; trailing text is refused |
| Strptime.TimeParsesIffSpelled | util/types.py:17-18 | `strptime(s, '%H:%M:%S')` gives `c` exactly when `c` is a valid time and all of `s` spells it: each field as two digits or, below ten, one digit, colons between |
| Strptime.TimestampParsesIffSpelled | util/types.py:19-20 | `strptime(s, '%Y-%m-%d %H:%M:%S')` gives `(d, c)` exactly when both are valid and `s` is a spelling of `d`, a non-empty run of whitespace, and a spelling of `c`, with nothing after |
| Strptime.MatchDateSpelled | util/types.py:15-16 | what the date directives consume is a spelling of the date they read |
| Strptime.MatchDateReads | util/types.py:15-16 | the date directives read any spelling of a date with month 1 to 12 and day 1 to 31 that is not followed by a digit |
| Strptime.MatchClockSpelled | util/types.py:17-18 | what the time directives consume is a spelling of the time they read |
| Strptime.MatchClockReads | util/types.py:17-18 | the time directives read any spelling of a valid time that is not followed by a digit |
| Strptime.DateRoundTrip | util/types.py:15-16 | parsing `YYYY-MM-DD` of any valid date gives that date back |
| Strptime.DateRejectsDayPastMonthEnd | util/types.py:15-16 | a day past the end of its month, such as 30 February, matches the format but is refused |
| Strptime.TimeRoundTrip | util/types.py:17-18 | parsing `HH:MM:SS` of any valid time gives it back |
| Strptime.TimestampRoundTrip | util/types.py:19-20 | parsing `YYYY-MM-DD HH:MM:SS` gives the date and time back |
| Types.ParseIntOfDigits | util/types.py:7-8 | `int()` of a plain string of decimal digits is their value |
| Types.ParseIntOfNegatedDigits | util/types.py:7-8 | `int()` of `-` followed by digits is the negated value |
| Types.ParseIntOfPlusDigits | util/types.py:7-8 | `int()` of `+` followed by digits is their value |
| Types.ParseIntRoundTrip | util/types.py:7-8 | `int(str(n)) == n` for every integer |
| Types.ParseInt | util/types.py:7-8 | `int()` of blank text raises, and only text whose number starts with a minus sign gives a negative number |
| Types.ParseIntIgnoresPadding | util/types.py:7-8 | whitespace padding on either side does not change what `int()` reads: `int(pad + s + pad) == int(s)` |
| Types.ParseIntRefusesStrayLead | util/types.py:7-8 | text whose first character is not whitespace, a sign or a digit makes `int()` raise; the separators U+001C to U+001F are not whitespace to `int()` |
| Types.IntegerOf | util/types.py:7-8 | a number is kept as it is; text converts exactly when `int()` reads it, to the number `int()` reads, and otherwise raises ValueError |
| Types.IntegerTagDispatch | util/types.py:7-8 | TINYINT, SMALLINT, INTEGER and BIGINT are `int(value)` for every value, number or text |
| Types.DateTimeOf | util/types.py:15-20 | a number always raises TypeError; text converts exactly when the tag's `strptime` format parses it, to the parsed date, time or timestamp, which is valid, and otherwise raises ValueError |
| Types.DateTagRefusesNonSpellings | util/types.py:15-16 | DATE raises ValueError exactly for the strings that spell no valid date in `%Y-%m-%d` |
| Types.TimeTagRefusesNonSpellings | util/types.py:17-18 | TIME raises ValueError exactly for the strings that spell no valid time in `%H:%M:%S` |
| Types.TimestampTagRefusesNonSpellings | util/types.py:19-20 | TIMESTAMP raises ValueError exactly for the strings that spell no valid date and time in `%Y-%m-%d %H:%M:%S` |
| Types.CalendarTagsAcceptExactlySpellings | util/types.py:15-20 | DATE, TIME and TIMESTAMP accept a string exactly when it spells a valid value in their format, and then return that value |
| Types.ConvertToPythonType | util/types.py:6-30 | every date, time or timestamp a conversion returns is valid |
| Types.UnsupportedIffUnknownTag | util/types.py:6-30 | "Unsupported data type" is raised exactly when the tag is not one of the sixteen exact upper-case names |
| Types.IntegerTagRoundTrip | util/types.py:7-8 | each of TINYINT, SMALLINT, INTEGER and BIGINT reads the decimal spelling of any integer back as that integer |
| Types.BooleanOfTrueIff | util/types.py:13-14 | lower-casing a string and comparing it with "true" and "1" accepts exactly "1" and the capitalisations of "true" |
| Types.BooleanTag | util/types.py:13-14 | BOOLEAN is `value.lower() in ['true', '1']` for every value, so a number raises AttributeError |
| Types.BooleanTagTrueIff | util/types.py:13-14 | BOOLEAN gives true exactly for "1" and the capitalisations of "true", and false for every other string |
| Types.BooleanOf | util/types.py:13-14 | any text gives a boolean; a number raises AttributeError, having no `lower` |
| Types.CalendarTagDispatch | util/types.py:15-20 | DATE, TIME and TIMESTAMP are handled by the `strptime` conversions |
| Types.DateTagRoundTrip | util/types.py:15-16 | DATE converts the ISO spelling of a valid date back to that date |
| Types.DateTagRejectsDayPastMonthEnd | util/types.py:15-16 | DATE raises on a day past the end of its month |
| Types.TimeTagRoundTrip | util/types.py:17-18 | TIME converts the ISO spelling of a valid time back to it |
| Types.TimestampTagRoundTrip | util/types.py:19-20 | TIMESTAMP converts `str(datetime)` back to the date and time |
| Types.BinaryOf | util/types.py:23-24 | `bytearray` succeeds exactly on a count of zero or more, giving that many zero bytes; a negative count raises ValueError and text raises TypeError |
| Types.BinaryTag | util/types.py:23-24 | BINARY is `bytearray(value)` |
| Types.VarcharTag | util/types.py:25-26 | VARCHAR gives `str(value)` for any value, and a string unchanged |
| Types.NullTag | util/types.py:27-28 | NULL gives None for any value |
| ResultDecoder.Step | cursor.py:53-64 | one event fails exactly when it is an item scalar met outside a schema map while no row is open |
| ResultDecoder.Fold | cursor.py:52-64 | the fold consumes every event unless it raises, and it only raises the row error |
| ResultDecoder.FindResultStart | cursor.py:45-49 | the index found is the first `results.item` map opening, and none is found only when there is none |
| ResultDecoder.Decode | cursor.py:41-65 | decoding fails with "results not found" exactly when no event opens `results.item` |
| ResultDecoder.StepEffect | cursor.py:53-64 | one step moves the schema flag, appends a schema entry, opens a row, or extends the last row, as its event dictates |
| ResultDecoder.FoldTracksFlag | cursor.py:52-57 | after the events read, the schema flag is up exactly when a map opening whose prefix mentions "schema" was read with no map closing after it, or neither was read and the flag was up before |
| ResultDecoder.FoldTracksSchema | cursor.py:52-59 | the schema is the string and number values read while a map whose prefix mentions "schema" is open |
| ResultDecoder.FoldCountsRows | cursor.py:60-61 | there is one row per `rows.item` array opening, whether or not a schema map is open |
| ResultDecoder.FoldCollectsRowValues | cursor.py:60-64 | the rows laid end to end are the `.item` scalars read outside schema maps, in order |
| ResultDecoder.FoldStopsAtFirstOrphan | cursor.py:62-64 | decoding stops at the first item scalar that arrives before any row is open, and only there |
| ResultDecoder.FoldConcat | cursor.py:53-64 | decoding two stretches of events is decoding the first and then the second from the state it left |
| ResultDecoder.FoldFillsLastRow | cursor.py:62-64 | while no new row opens, every item scalar outside a schema map goes into the last row, and none is refused |
| ResultDecoder.FoldOpensRowThenFills | cursor.py:60-64 | a `rows.item` array opening always adds a new row, leaves the earlier rows as they were, and that row holds exactly the item scalars read outside schema maps until the next row opens |
| ResultDecoder.DecodeSkipsPrelude | cursor.py:45-49 | everything before the first `results.item` map is skipped unread |
| ResultDecoder.DecodeContents | cursor.py:41-65 | the decoded schema, the row count, the rows laid end to end, and the error, in terms of the reference definitions |
| Client.FailureMessage | cursor.py:66-70 | the error text starts with the fixed message and ends with `: ` and the response text |
| Client.FailureMessageShowsStatus | cursor.py:67-68 | the status code appears in decimal after the twenty-space padding |
| Client.Raised | cursor.py:20-70 | the exception class of each error: ValueError for a bad `params` and an unsupported tag, the library's own class for a refused value (the class the conversion raised), `Exception` with the failure message for a non-200 reply, StopIteration for a body whose top-level `results` array opens no object, IndexError for `pop` from an empty list and for an item scalar with no row |
| Client.IsDictOrAbsent | cursor.py:22 | `params` is refused exactly when it is a list or any other non-dictionary value; None and dictionaries pass |
| Client.QueryText | cursor.py:25-28 | the query is interpolated exactly when the parameters are a non-empty dictionary |
| Client.Url | cursor.py:32-35 | the URL is the base URL, or "None" when there is none, followed by the endpoint path and nothing else |
| Client.DataTypeNames | cursor.py:179-180 | the type names are exactly the values of schema entries whose prefix mentions `dataTypeName` |
| Client.DataTypeNamesConcat | cursor.py:179-180 | selecting type names commutes with concatenating schema entries |
| Client.ConvertZipColumns | cursor.py:182-185 | a row zipped with its names and converted by a given conversion is as long as the shorter of the two, each value converted with its own column's name, and the first failing column decides the error |
| Client.ConvertRowColumns | cursor.py:178-185 | `_convert_row` keeps as many values as there are type names or values, whichever is fewer, each converted by `convert_to_python_type` with its own column's type, and raises with the first failing column |
| Client.ConvertRow | cursor.py:178-185 | a converted row has as many values as the shorter of the type names and the row |
| Client.ConvertRows | cursor.py:194 | all rows convert exactly when each does, one result per row, in order |
| Client.TakeRows | cursor.py:197-204 | the result and remaining rows of `size` rounds of pop-and-convert, stated by the lemmas below |
| Client.TakeRowsShape | cursor.py:197-204 | `fetchmany(n)` only removes rows from the front; on success it took exactly `n` rows (none for `n` below one) and left the rest; it raises only on an empty list or a failed conversion |
| Client.TakeWithinRows | cursor.py:197-204 | `fetchmany(n)` with at least `n` rows returns the first `n` converted and leaves the rest |
| Client.TakePastEnd | cursor.py:197-204 | `fetchmany(n)` with fewer than `n` rows, every one of which converts, removes them all and raises IndexError from `pop` |
| Client.TakeStopsAtBadRow | cursor.py:197-204 | a row that fails to convert raises and has already been removed |
| Client.Connection.constructor | connection.py:24-29 | the base URL and the `(username, password)` pair are kept as given |
| Client.Connection.NewCursor | connection.py:31-32 | a fresh cursor on this connection with no schema, no rows and no response |
| Client.Cursor.constructor | cursor.py:13-18 | a new cursor starts with no schema, no rows and row counter 0 |
| Client.Cursor.Execute | cursor.py:20-72 | a non-dictionary `params` raises before anything is sent or changed; otherwise the `/query` request and the decoded reply |
| Client.Cursor.ExecuteMany | cursor.py:74-123 | the `/batch` request, sent without any check on the parameters, and the decoded reply |
| Client.Cursor.CallProc | cursor.py:125-176 | a non-dictionary `params` raises before anything is sent; otherwise the procedure request to `/query` and the decoded reply |
| Client.Cursor.Receive | cursor.py:37-70 | schema and rows are reset; a 200 reply is decoded in place, any other status raises with empty schema and rows |
| Client.Cursor.SkipToResults | cursor.py:45-49 | the first loop stops at the first `results.item` map opening, or at the end when there is none |
| Client.Cursor.ApplyEvent | cursor.py:54-64 | one pass of the loop body updates the flag, the schema and the rows as `Step` does, and fails exactly when `Step` does |
| Client.Cursor.FoldEvents | cursor.py:52-65 | the second loop leaves the schema and rows that `Fold` computes, and raises exactly where `Fold` stops |
| Client.Cursor.ReadResults | cursor.py:41-65 | the two loops leave in `schema` and `rows` exactly what `Decode` describes, partial results included |
| Client.Cursor.FetchOne | cursor.py:187-190 | None when there are no rows; otherwise the first row is removed and returned converted, and it stays removed if conversion raises; rows still come only with a schema |
| Client.Cursor.FetchAll | cursor.py:192-195 | every row converted in order, without removing any |
| Client.Cursor.FetchMany | cursor.py:197-204 | the result and the remaining rows are those of `TakeRows`; rows still come only with a schema |
| Api.ModuleGlobals | __init__.py:24-26 | `apilevel` is "2.0", `threadsafety` is 1 (one of the levels 0 to 3 DB-API 2.0 defines) and `paramstyle` is "pyformat" (one of its five styles) |
| Api.Truthy | __init__.py:15-17 | an optional string counts as given unless it is None or empty |
| Api.ConnectArguments | __init__.py:4-21 | connecting succeeds exactly when a configuration path or all three of URL, username and password are non-empty; a path is passed where the base URL goes |
| Api.Connect | __init__.py:4-21 | a fresh connection built from those arguments, or the ValueError text |

## Left out

- The HTTP transport (`requests.post` with streaming) is not modelled. Each
  call returns the request it would send and takes the reply as an argument.
- The incremental JSON parser is not modelled. Its event stream is an input,
  and JSON numbers are integers only: the decimal values the parser yields
  for fractions are not modelled.
- `query % params` is a term (`Interpolated`), not evaluated. Its own errors
  (a missing key, a bad format) are not modelled.
- The configuration-file branch of `Connection.__init__`, which reads a HOCON
  file, is not modelled; `connect` never reaches it.
- Logging calls are not modelled. Thread-safety helpers are not part of this
  model.
- Types.ConvertToPythonType: FLOAT, DOUBLE, DECIMAL, NUMERIC and UUID keep
  the raw scalar and always succeed. The library parsers behind `float`,
  `Decimal` and `uuid.UUID` are not modelled, so neither their results nor
  their rejection of malformed text is captured.
- Types.ConvertToPythonType: whitespace and digits are ASCII only. Python's
  `int()` and `strptime` also accept Unicode digits and spaces.
- Client.Cursor.FetchOne, Client.Cursor.FetchMany and Client.Cursor.FetchAll:
  require `Cursor.Valid` (rows only come with a schema), which every state
  the cursor's own methods leave satisfies. Rows assigned from outside while
  the schema is still `None`, on which Python raises TypeError, are not
  modelled.
- Text.AsciiLower: only A to Z are lower-cased. Python's `str.lower` also
  lower-cases non-ASCII letters, some into several characters. No non-ASCII
  character lower-cases to a letter of "true" or to "1", so what BOOLEAN
  accepts is unaffected.
- Types.ParseInt: no limit on the number of digits. Python refuses `int()`
  of text with more than 4300 digits unless that limit is changed.
- Client.Raised: the messages of `int()`, `strptime`, `bytearray` and
  `str.lower` failures belong to those libraries and are not modelled; the
  exception class is.
- The cursor's `_rows_generator` attribute is always `None` and never used,
  so it is not a field. `current_row` is kept but nothing reads it.
- Parameters are dictionaries of strings and numbers; nested JSON values are
  not modelled.

=== FILE: api.dfy ===
/**
 * The package entry point: `connect` and the DB-API module constants.
 */
module Api {
  import opened Wrappers
  import opened Client

  /** DB-API 2.0 module globals. */
  const ApiLevel: string := "2.0"
  /** Threads may share the module but not connections. */
  const ThreadSafety: int := 1
  /** Parameters are written `%(name)s`. */
  const ParamStyle: string := "pyformat"

  /** The `paramstyle` values DB-API 2.0 (PEP 249) defines. */
  predicate DbApiParamStyle(p: string) {
    p in ["qmark", "numeric", "named", "format", "pyformat"]
  }

  /**
   * The module globals name interface level 2.0, one of the four thread-safety
   * levels 0 to 3 that DB-API 2.0 defines, and one of its five parameter styles.
   */
  lemma ModuleGlobals()
    ensures ApiLevel == "2.0"
    ensures 0 <= ThreadSafety <= 3 && ThreadSafety == 1
    ensures DbApiParamStyle(ParamStyle) && ParamStyle == "pyformat"
  {
  }

  const MissingArgumentsMessage: string :=
    "Either config_path or base_url, username,and password must be provided."

  /** Python truthiness of an optional string: present and non-empty. */
  predicate Truthy(o: Option<string>): (b: bool)
    ensures b <==> o != None && o != Some("")
  {
    o.Some? && o.value != []
  }

  /**
   * The positional arguments `connect` hands to the `Connection` constructor,
   * or the `ValueError` text. A configuration path is passed in the first
   * position, which the constructor reads as the base URL.
   */
  function ConnectArguments(configPath: Option<string>, baseUrl: Option<string>,
                            username: Option<string>, password: Option<string>)
    : (r: Result<(Option<string>, Option<string>, Option<string>), string>)
    ensures r.Success? <==> Truthy(configPath) || (Truthy(baseUrl) && Truthy(username) && Truthy(password))
    ensures r.Failure? ==> r.error == MissingArgumentsMessage
    ensures Truthy(configPath) ==> r == Success((configPath, None, None))
    ensures !Truthy(configPath) && r.Success? ==> r.value == (baseUrl, username, password)
  {
    if Truthy(configPath) then Success((configPath, None, None))
    else if Truthy(baseUrl) && Truthy(username) && Truthy(password) then Success((baseUrl, username, password))
    else Failure(MissingArgumentsMessage)
  }

  /** `connect`: a new connection, or the `ValueError` when neither form of arguments is complete. */
  method Connect(configPath: Option<string> := None, baseUrl: Option<string> := None,
                 username: Option<string> := None, password: Option<string> := None)
    returns (r: Result<Connection, string>)
    ensures r.Success? <==> ConnectArguments(configPath, baseUrl, username, password).Success?
    ensures r.Failure? ==> r.error == MissingArgumentsMessage
    ensures r.Success? ==> fresh(r.value)
    ensures r.Success? ==>
      var (b, u, p) := ConnectArguments(configPath, baseUrl, username, password).value;
      r.value.baseUrl == b && r.value.auth == (u, p)
  {
    match ConnectArguments(configPath, baseUrl, username, password)
    case Failure(e) =>
      r := Failure(e);
    case Success((b, u, p)) =>
      var c := new Connection(b, u, p);
      r := Success(c);
  }
}

=== FILE: client.dfy ===
/**
 * The connection and its cursors. A cursor posts one request per `execute`,
 * `executemany` or `callproc`, decodes the streamed reply into `schema` and
 * `rows`, and hands the rows out converted by their column types.
 *
 * The HTTP exchange is not modelled: each call returns the request it would
 * post, and takes the server's reply (status, body text, parser events) as an
 * argument.
 */
module Client {
  import opened Wrappers
  import opened Text
  import opened Types
  import opened ResultDecoder

  /** What the caller passed as `params`; `List` and `Other` fail the dictionary check. */
  datatype Params =
    | Absent
    | Dict(entries: map<string, Scalar>)
    | List(items: seq<map<string, Scalar>>)
    | Other(repr: string)

  /** The query text sent: `query % params` is kept as a term, not evaluated. */
  datatype Query = Literal(text: string) | Interpolated(template: string, args: map<string, Scalar>)

  /** The three JSON bodies the cursor posts. */
  datatype Body =
    | QueryBody(query: Query)
    | BatchBody(batchQuery: string, batchSchema: string, batchParams: Params)
    | ProcBody(procedure: string, procSchema: string, procParams: Params)

  datatype Request = Request(url: string, auth: (Option<string>, Option<string>), body: Body)

  /** The server's reply: status code, body text, and the events its body parses into. */
  datatype Response = Response(status: int, text: string, events: seq<Event>)

  /** Why a cursor call raised; `Raised` gives the Python exception each one stands for. */
  datatype CursorError =
    | ParamsNotDict
    | RequestFailed(status: int, text: string)
    | Decoding(decodeError: DecodeError)
    | PopFromEmpty
    | Conversion(convError: ConvError)

  const ParamsMessage: string := "Params must be a dictionary"

  const FailurePrefix: string := "Cursor - API request failed with status code"

  /**
   * The text of the exception for a non-200 reply. The f-string's line
   * continuation keeps the next line's twenty-space indentation.
   */
  function FailureMessage(status: int, text: string): (m: string)
    ensures StartsWith(m, FailurePrefix)
    ensures EndsWith(m, ": " + text)
  {
    var m := FailurePrefix + seq(20, _ => ' ') + IntToString(status) + ": " + text;
    assert m[..|FailurePrefix|] == FailurePrefix;
    assert m[|m| - |": " + text|..] == ": " + text;
    m
  }

  /** An exception: its class, and its message where the client writes the message itself. */
  datatype Raise = Raise(exception: PyException, message: Option<string>)

  /**
   * The exception behind each error. The messages of `int()`, `strptime`,
   * `bytearray` and `lower` are their libraries' own and are not modelled.
   */
  function Raised(e: CursorError): (x: Raise)
    ensures x.exception == ValueError <==>
      e.ParamsNotDict? || (e.Conversion? && (e.convError.Unsupported? || e.convError.raised == ValueError))
    ensures !e.Conversion? ==> (x.exception == IndexError <==> e.PopFromEmpty? || e == Decoding(NoRowToExtend))
    ensures e.RequestFailed? ==> x.exception == PlainException && x.message == Some(FailureMessage(e.status, e.text))
    ensures e.Conversion? && e.convError.Unsupported? ==>
      x.message.Some? && StartsWith(x.message.value, "Unsupported data type: ")
    ensures e.Conversion? && e.convError.Rejected? ==> x.exception == e.convError.raised
    ensures x.exception == StopIteration <==>
      e == Decoding(ResultsNotFound) || (e.Conversion? && e.convError.Rejected? && e.convError.raised == StopIteration)
  {
    match e
    case ParamsNotDict => Raise(ValueError, Some(ParamsMessage))
    case RequestFailed(status, text) => Raise(PlainException, Some(FailureMessage(status, text)))
    case Decoding(ResultsNotFound) => Raise(StopIteration, Some(""))
    case Decoding(NoRowToExtend) => Raise(IndexError, Some("list index out of range"))
    case PopFromEmpty => Raise(IndexError, Some("pop from empty list"))
    case Conversion(Unsupported(tag)) =>
      var m := UnsupportedMessage(tag);
      assert m[..|"Unsupported data type: "|] == "Unsupported data type: ";
      Raise(ValueError, Some(m))
    case Conversion(Rejected(raised, _, _)) => Raise(raised, None)
  }

  /** The message carries the status code in decimal, right after the padding. */
  lemma FailureMessageShowsStatus(status: int, text: string)
    ensures OccursAt(FailureMessage(status, text), IntToString(status), |FailurePrefix| + 20)
  {
    var m := FailureMessage(status, text);
    var k := |FailurePrefix| + 20;
    assert m[k..k + |IntToString(status)|] == IntToString(status);
  }

  /** `params is None or isinstance(params, dict)`. */
  predicate IsDictOrAbsent(params: Params): (b: bool)
    ensures !b <==> params.List? || params.Other?
  {
    params.Absent? || params.Dict?
  }

  /** The query that is sent: interpolated only when `params` is truthy, that is a non-empty dict. */
  function QueryText(query: string, params: Params): (q: Query)
    ensures q.Interpolated? <==> params.Dict? && |params.entries| > 0
    ensures q.Interpolated? ==> q == Interpolated(query, params.entries)
    ensures q.Literal? ==> q.text == query
  {
    if params.Dict? && |params.entries| > 0 then Interpolated(query, params.entries) else Literal(query)
  }

  /** `f"{base_url}/..."`: a missing base URL is rendered as "None". */
  function Url(baseUrl: Option<string>, path: string): (u: string)
    ensures |u| == (if baseUrl.Some? then |baseUrl.value| else |"None"|) + |path|
    ensures EndsWith(u, path)
    ensures baseUrl.Some? ==> StartsWith(u, baseUrl.value)
    ensures baseUrl.None? ==> u == "None" + path
  {
    var host := if baseUrl.Some? then baseUrl.value else "None";
    assert (host + path)[..|host|] == host;
    assert (host + path)[|host + path| - |path|..] == path;
    host + path
  }

  // ----- Converting rows -----

  /** The values of the schema entries whose prefix mentions `dataTypeName`, in order. */
  function DataTypeNames(schema: seq<Column>): (names: seq<Scalar>)
    ensures |names| <= |schema|
    ensures forall c :: c in schema && Contains(c.0, "dataTypeName") ==> c.1 in names
    ensures forall v :: v in names ==> exists c :: c in schema && Contains(c.0, "dataTypeName") && c.1 == v
    decreases |schema|
  {
    if schema == [] then []
    else
      var rest := DataTypeNames(schema[1..]);
      assert forall c :: c in schema[1..] ==> c in schema;
      if Contains(schema[0].0, "dataTypeName") then [schema[0].1] + rest else rest
  }

  /** Selecting the type names of two stretches of schema is selecting each. */
  lemma {:induction false} DataTypeNamesConcat(a: seq<Column>, b: seq<Column>)
    ensures DataTypeNames(a + b) == DataTypeNames(a) + DataTypeNames(b)
    decreases |a|
  {
    if a == [] {
      assert a + b == b;
    } else {
      assert (a + b)[1..] == a[1..] + b;
      DataTypeNamesConcat(a[1..], b);
    }
  }

  /** `zip(names, row)` converted pairwise by `convert`, stopping at the first failure. */
  function ConvertZip(convert: (Scalar, Scalar) -> Result<Value, ConvError>, names: seq<Scalar>, row: Row)
    : Result<seq<Value>, ConvError>
    decreases |row|
  {
    if names == [] || row == [] then Success([])
    else
      match convert(row[0], names[0])
      case Failure(e) => Failure(e)
      case Success(v) =>
        match ConvertZip(convert, names[1..], row[1..])
        case Failure(e) => Failure(e)
        case Success(vs) => Success([v] + vs)
  }

  /**
   * The zipped conversion is as long as the shorter list, converts each
   * value with its own column's name, and fails with the first failure.
   */
  lemma {:induction false} ConvertZipColumns(convert: (Scalar, Scalar) -> Result<Value, ConvError>, names: seq<Scalar>, row: Row)
    ensures var r := ConvertZip(convert, names, row);
      && (r.Success? ==> |r.value| == if |names| < |row| then |names| else |row|)
      && (r.Success? ==> forall i :: 0 <= i < |r.value| ==> convert(row[i], names[i]) == Success(r.value[i]))
      && (r.Failure? ==>
           exists i :: 0 <= i < |names| && i < |row| &&
             convert(row[i], names[i]) == Failure(r.error) &&
             forall j :: 0 <= j < i ==> convert(row[j], names[j]).Success?)
    decreases |row|
  {
    if names != [] && row != [] && convert(row[0], names[0]).Success? {
      ConvertZipColumns(convert, names[1..], row[1..]);
      var r := ConvertZip(convert, names[1..], row[1..]);
      if r.Failure? {
        var i :| 0 <= i < |names| - 1 && i < |row| - 1 &&
          convert(row[1..][i], names[1..][i]) == Failure(r.error) &&
          forall j :: 0 <= j < i ==> convert(row[1..][j], names[1..][j]).Success?;
        assert convert(row[i + 1], names[i + 1]) == Failure(r.error);
        assert forall j :: 1 <= j < i + 1 ==> convert(row[j], names[j]) == convert(row[1..][j - 1], names[1..][j - 1]);
      }
    }
  }

  /**
   * `_convert_row`: the row's values converted by the schema's type names,
   * as many as the shorter of the two lists holds.
   */
  function ConvertRow(schema: seq<Column>, row: Row): (r: Result<seq<Value>, ConvError>)
    ensures r.Success? ==> |r.value| == Min(|DataTypeNames(schema)|, |row|)
  {
    ConvertZipColumns(ConvertToPythonType, DataTypeNames(schema), row);
    ConvertZip(ConvertToPythonType, DataTypeNames(schema), row)
  }

  function Min(a: nat, b: nat): nat {
    if a < b then a else b
  }

  /**
   * A converted row is truncated to the shorter of the type names and the
   * values, each value converted by its own column's type name, and the
   * first column that fails decides the error.
   */
  lemma ConvertRowColumns(schema: seq<Column>, row: Row)
    ensures var r := ConvertRow(schema, row); var names := DataTypeNames(schema);
      && (r.Success? ==> |r.value| == if |names| < |row| then |names| else |row|)
      && (r.Success? ==> forall i :: 0 <= i < |r.value| ==> ConvertToPythonType(row[i], names[i]) == Success(r.value[i]))
      && (r.Failure? ==>
           exists i :: 0 <= i < |names| && i < |row| &&
             ConvertToPythonType(row[i], names[i]) == Failure(r.error) &&
             forall j :: 0 <= j < i ==> ConvertToPythonType(row[j], names[j]).Success?)
  {
    ConvertZipColumns(ConvertToPythonType, DataTypeNames(schema), row);
  }

  /** Every row converted, in order; the first row that fails decides the error. */
  function ConvertRows(schema: seq<Column>, rows: seq<Row>): (r: Result<seq<seq<Value>>, ConvError>)
    ensures r.Success? <==> forall i :: 0 <= i < |rows| ==> ConvertRow(schema, rows[i]).Success?
    ensures r.Success? ==> |r.value| == |rows|
    ensures r.Success? ==> forall i :: 0 <= i < |rows| ==> ConvertRow(schema, rows[i]) == Success(r.value[i])
    decreases |rows|
  {
    if rows == [] then Success([])
    else
      match ConvertRow(schema, rows[0])
      case Failure(e) => Failure(e)
      case Success(v) =>
        match ConvertRows(schema, rows[1..])
        case Failure(e) => Failure(e)
        case Success(vs) => Success([v] + vs)
  }

  function Max0(n: int): nat {
    if n < 0 then 0 else n
  }

  /**
   * What `fetchmany(n)` returns and which rows it leaves: each of `n` rounds
   * pops the first row and converts it. A round that finds no row raises
   * (`pop` from an empty list); a round whose conversion raises has already
   * removed its row. Either way the rows taken so far are lost.
   */
  function TakeRows(schema: seq<Column>, rows: seq<Row>, n: int): (t: (Result<seq<seq<Value>>, CursorError>, seq<Row>))
    decreases |rows|
  {
    if n <= 0 then (Success([]), rows)
    else if rows == [] then (Failure(PopFromEmpty), [])
    else
      match ConvertRow(schema, rows[0])
      case Failure(e) => (Failure(Conversion(e)), rows[1..])
      case Success(v) =>
        var (r, rest) := TakeRows(schema, rows[1..], n - 1);
        (if r.Success? then Success([v] + r.value) else r, rest)
  }

  /**
   * `fetchmany(n)` only ever removes rows from the front. When it returns,
   * it has taken exactly `n` rows (none for a count below one) and left the
   * rest; when it raises, the row list ran out or a conversion failed.
   */
  lemma {:induction false} TakeRowsShape(schema: seq<Column>, rows: seq<Row>, n: int)
    ensures var t := TakeRows(schema, rows, n);
      && |t.1| <= |rows| && t.1 == rows[|rows| - |t.1|..]
      && (t.0.Success? ==> n <= |rows| && |t.0.value| == Max0(n) && t.1 == rows[Max0(n)..])
      && (t.0.Failure? ==> t.0.error.PopFromEmpty? || t.0.error.Conversion?)
    decreases |rows|
  {
    if n > 0 && rows != [] {
      var c := ConvertRow(schema, rows[0]);
      if c.Success? {
        TakeRowsShape(schema, rows[1..], n - 1);
        var t := TakeRows(schema, rows[1..], n - 1);
        assert TakeRows(schema, rows, n) == (if t.0.Success? then Success([c.value] + t.0.value) else t.0, t.1);
        assert rows[1..][|rows| - 1 - |t.1|..] == rows[|rows| - |t.1|..];
        if t.0.Success? {
          assert rows[1..][Max0(n - 1)..] == rows[Max0(n)..];
        }
      } else {
        assert TakeRows(schema, rows, n) == (Failure(Conversion(c.error)), rows[1..]);
      }
    }
  }

  /**
   * Within the rows there are: the first `n` rows are returned converted
   * and the rest stay, unless one of them fails to convert.
   */
  lemma {:induction false} TakeWithinRows(schema: seq<Column>, rows: seq<Row>, n: int)
    requires 0 <= n <= |rows|
    requires ConvertRows(schema, rows[..n]).Success?
    ensures TakeRows(schema, rows, n) == (Success(ConvertRows(schema, rows[..n]).value), rows[n..])
    decreases n
  {
    if n > 0 {
      assert rows[..n][0] == rows[0];
      assert rows[..n][1..] == rows[1..][..n - 1];
      TakeWithinRows(schema, rows[1..], n - 1);
    }
  }

  /**
   * Asking for more rows than there are empties the cursor and raises:
   * the loop is never stopped early.
   */
  lemma {:induction false} TakePastEnd(schema: seq<Column>, rows: seq<Row>, n: int)
    requires n > |rows|
    requires ConvertRows(schema, rows).Success?
    ensures TakeRows(schema, rows, n) == (Failure(PopFromEmpty), [])
    decreases |rows|
  {
    if rows != [] {
      TakePastEnd(schema, rows[1..], n - 1);
    }
  }

  /** A row that fails to convert ends the call, and it is gone from the cursor. */
  lemma {:induction false} TakeStopsAtBadRow(schema: seq<Column>, rows: seq<Row>, n: int, i: nat)
    requires i < n && i < |rows|
    requires ConvertRows(schema, rows[..i]).Success? && ConvertRow(schema, rows[i]).Failure?
    ensures TakeRows(schema, rows, n) == (Failure(Conversion(ConvertRow(schema, rows[i]).error)), rows[i + 1..])
    decreases i
  {
    if i > 0 {
      assert rows[..i][0] == rows[0];
      assert ConvertRow(schema, rows[0]).Success?;
      assert rows[..i][1..] == rows[1..][..i - 1];
      var tail := rows[1..][..i - 1];
      assert ConvertRows(schema, tail).Success? by {
        forall k | 0 <= k < i - 1
          ensures ConvertRow(schema, tail[k]).Success?
        {
          assert tail[k] == rows[..i][k + 1];
        }
      }
      TakeStopsAtBadRow(schema, rows[1..], n - 1, i - 1);
    }
  }

  // ----- The classes -----

  class Connection {
    const baseUrl: Option<string>
    const auth: (Option<string>, Option<string>)

    /** The parameter branch of the constructor: URL and credentials are kept as given. */
    constructor (baseUrl: Option<string> := None, username: Option<string> := None, password: Option<string> := None)
      ensures this.baseUrl == baseUrl && auth == (username, password)
    {
      this.baseUrl := baseUrl;
      auth := (username, password);
    }

    /** `cursor()`: a new cursor on this connection, with nothing read yet. */
    method NewCursor() returns (c: Cursor)
      ensures fresh(c) && c.connection == this
      ensures c.schema.None? && c.rows == [] && c.currentRow == 0 && c.response.None?
      ensures c.Valid()
    {
      c := new Cursor(this);
    }
  }

  class Cursor {
    const connection: Connection
    /** `None` until a request has been posted. */
    var schema: Option<seq<Column>>
    var rows: seq<Row>
    /** Set by the constructor and never read. */
    var currentRow: int
    var response: Option<Response>

    /** Rows only ever arrive together with a schema. */
    predicate Valid()
      reads this
    {
      schema.None? ==> rows == []
    }

    /** The schema as a list; when it is `None` there are no rows to convert with it. */
    function Columns(): seq<Column>
      reads this
    {
      if schema.Some? then schema.value else []
    }

    constructor (connection: Connection)
      ensures this.connection == connection
      ensures schema.None? && rows == [] && currentRow == 0 && response.None?
      ensures Valid()
    {
      this.connection := connection;
      schema := None;
      rows := [];
      currentRow := 0;
      response := None;
    }

    /** The state a reply leaves: decoded when the status is 200, emptied and failed otherwise. */
    ghost predicate Received(reply: Response, error: Option<CursorError>)
      reads this
    {
      && response == Some(reply)
      && if reply.status == 200 then
           var d := Decode(reply.events);
           && schema == Some(d.schema) && rows == d.rows
           && error == (if d.error.Some? then Some(Decoding(d.error.value)) else None)
         else
           schema == Some([]) && rows == [] && error == Some(RequestFailed(reply.status, reply.text))
    }

    /** `execute`: check the parameters, post the query to `/query`, read the reply. */
    method Execute(query: string, params: Params, reply: Response)
      returns (sent: Option<Request>, error: Option<CursorError>)
      modifies this`schema, this`rows, this`response
      ensures !IsDictOrAbsent(params) ==>
        sent.None? && error == Some(ParamsNotDict) && unchanged(this)
      ensures IsDictOrAbsent(params) ==>
        && sent == Some(Request(Url(connection.baseUrl, "/query"), connection.auth, QueryBody(QueryText(query, params))))
        && Received(reply, error)
      ensures IsDictOrAbsent(params) ==> Valid()
    {
      if !IsDictOrAbsent(params) {
        return None, Some(ParamsNotDict);
      }
      var request := Request(Url(connection.baseUrl, "/query"), connection.auth, QueryBody(QueryText(query, params)));
      sent := Some(request);
      error := Receive(reply);
    }

    /** `executemany`: post the batch to `/batch` without checking the parameters, read the reply. */
    method ExecuteMany(query: string, defaultSchema: string, params: Params, reply: Response)
      returns (sent: Request, error: Option<CursorError>)
      modifies this`schema, this`rows, this`response
      ensures sent == Request(Url(connection.baseUrl, "/batch"), connection.auth, BatchBody(query, defaultSchema, params))
      ensures Received(reply, error)
      ensures Valid()
    {
      sent := Request(Url(connection.baseUrl, "/batch"), connection.auth, BatchBody(query, defaultSchema, params));
      error := Receive(reply);
    }

    /** `callproc`: check the parameters, post the procedure call to `/query`, read the reply. */
    method CallProc(procedure: string, defaultSchema: string, params: Params, reply: Response)
      returns (sent: Option<Request>, error: Option<CursorError>)
      modifies this`schema, this`rows, this`response
      ensures !IsDictOrAbsent(params) ==>
        sent.None? && error == Some(ParamsNotDict) && unchanged(this)
      ensures IsDictOrAbsent(params) ==>
        && sent == Some(Request(Url(connection.baseUrl, "/query"), connection.auth, ProcBody(procedure, defaultSchema, params)))
        && Received(reply, error)
      ensures IsDictOrAbsent(params) ==> Valid()
    {
      if !IsDictOrAbsent(params) {
        return None, Some(ParamsNotDict);
      }
      sent := Some(Request(Url(connection.baseUrl, "/query"), connection.auth, ProcBody(procedure, defaultSchema, params)));
      error := Receive(reply);
    }

    /** The part the three request methods share: record the reply, reset, then decode or fail. */
    method Receive(reply: Response) returns (error: Option<CursorError>)
      modifies this`schema, this`rows, this`response
      ensures Received(reply, error)
      ensures Valid()
    {
      response := Some(reply);
      rows := [];
      schema := Some([]);
      if reply.status == 200 {
        var e := ReadResults(reply.events);
        error := if e.Some? then Some(Decoding(e.value)) else None;
      } else {
        error := Some(RequestFailed(reply.status, reply.text));
      }
    }

    /**
     * The skip loop and the decoding loop, appending to `schema` and `rows`
     * in place; what was appended before an error stays.
     */
    method ReadResults(events: seq<Event>) returns (error: Option<DecodeError>)
      requires schema == Some([]) && rows == []
      modifies this`schema, this`rows
      ensures var d := Decode(events); schema == Some(d.schema) && rows == d.rows && error == d.error
    {
      var i := SkipToResults(events);
      if i == |events| {
        return Some(ResultsNotFound);
      }
      error := FoldEvents(events[i + 1..]);
    }

    /** The `while not (...)` loop: the position of the first `results.item` map, or the end. */
    static method SkipToResults(events: seq<Event>) returns (i: nat)
      ensures i <= |events|
      ensures i < |events| ==> FindResultStart(events) == Some(i)
      ensures i == |events| ==> FindResultStart(events).None?
    {
      i := 0;
      while i < |events| && !IsResultStart(events[i])
        invariant 0 <= i <= |events|
        invariant forall j :: 0 <= j < i ==> !IsResultStart(events[j])
      {
        i := i + 1;
      }
    }

    /** The `for` loop over the remaining events. */
    method FoldEvents(events: seq<Event>) returns (error: Option<DecodeError>)
      requires schema == Some([]) && rows == []
      modifies this`schema, this`rows
      ensures var p := Fold(Initial, events);
        schema == Some(p.state.schema) && rows == p.state.rows && error == p.error
    {
      var i := 0;
      var inSchema := false;
      while i < |events|
        invariant 0 <= i <= |events|
        invariant schema.Some?
        invariant
          var p := Fold(State(inSchema, schema.value, rows), events[i..]);
          Fold(Initial, events) == p.(consumed := p.consumed + i)
      {
        assert events[i..][0] == events[i] && events[i..][1..] == events[i + 1..];
        ghost var before := State(inSchema, schema.value, rows);
        var failed;
        inSchema, failed := ApplyEvent(inSchema, events[i]);
        if failed {
          FoldStopsHere(before, events[i..]);
          return Some(NoRowToExtend);
        }
        FoldCons(before, events[i..]);
        i := i + 1;
      }
      error := None;
    }

    /** One pass of the decoding loop's body: the `if`/`elif` chain over one event. */
    method ApplyEvent(inSchema: bool, e: Event) returns (flag: bool, failed: bool)
      requires schema.Some?
      modifies this`schema, this`rows
      ensures schema.Some?
      ensures var st := Step(State(inSchema, old(schema.value), old(rows)), e);
        if failed then st.Failure? && schema == old(schema) && rows == old(rows)
        else st == Success(State(flag, schema.value, rows))
    {
      flag, failed := inSchema, false;
      var x := ScalarOf(e.kind);
      if e.kind == StartMap && Contains(e.prefix, "schema") {
        flag := true;
      } else if e.kind == EndMap && inSchema {
        flag := false;
      } else if inSchema && x.Some? {
        schema := Some(schema.value + [(e.prefix, x.value)]);
      } else if Contains(e.prefix, "rows.item") && e.kind == StartArray {
        rows := rows + [[]];
      } else if EndsWith(e.prefix, ".item") && x.Some? {
        if rows == [] {
          failed := true;
        } else {
          rows := rows[|rows| - 1 := rows[|rows| - 1] + [x.value]];
        }
      }
    }

    /** `fetchone`: the first row, converted, or `None` when there is none. */
    method FetchOne() returns (r: Result<Option<seq<Value>>, CursorError>)
      requires Valid()
      modifies this`rows
      ensures Valid()
      ensures old(rows) == [] ==> r == Success(None) && rows == []
      ensures old(rows) != [] ==> rows == old(rows)[1..]
      ensures old(rows) != [] ==>
        r == match ConvertRow(Columns(), old(rows)[0])
             case Success(v) => Success(Some(v))
             case Failure(e) => Failure(Conversion(e))
    {
      if rows == [] {
        return Success(None);
      }
      var row := rows[0];
      rows := rows[1..];
      var c := ConvertRow(Columns(), row);
      r := match c
        case Success(v) => Success(Some(v))
        case Failure(e) => Failure(Conversion(e));
    }

    /** `fetchall`: every row converted; the rows stay in the cursor. */
    function FetchAll(): (r: Result<seq<seq<Value>>, CursorError>)
      requires Valid()
      reads this
      ensures r.Success? <==> forall i :: 0 <= i < |rows| ==> ConvertRow(Columns(), rows[i]).Success?
      ensures r.Success? ==> |r.value| == |rows|
      ensures r.Success? ==> forall i :: 0 <= i < |rows| ==> ConvertRow(Columns(), rows[i]) == Success(r.value[i])
    {
      match ConvertRows(Columns(), rows)
      case Success(vs) => Success(vs)
      case Failure(e) => Failure(Conversion(e))
    }

    /** `fetchmany`: `size` rounds of pop-and-convert, as `TakeRows` describes. */
    method FetchMany(size: int := 1) returns (r: Result<seq<seq<Value>>, CursorError>)
      requires Valid()
      modifies this`rows
      ensures (r, rows) == TakeRows(Columns(), old(rows), size)
      ensures Valid()
    {
      var cols := Columns();
      var taken: seq<seq<Value>> := [];
      var k := 0;
      ghost var whole := TakeRows(cols, rows, size);
      assert whole.0.Success? ==> taken + whole.0.value == whole.0.value;
      while k < size
        invariant size >= 0 ==> k <= size
        invariant k >= 0
        invariant
          var t := TakeRows(cols, rows, size - k);
          TakeRows(cols, old(rows), size) == (if t.0.Success? then Success(taken + t.0.value) else t.0, t.1)
        decreases size - k
      {
        if rows == [] {
          return Failure(PopFromEmpty);
        }
        ghost var before := rows;
        var row := rows[0];
        rows := rows[1..];
        var c := ConvertRow(cols, row);
        if c.Failure? {
          return Failure(Conversion(c.error));
        }
        ghost var t1 := TakeRows(cols, rows, size - k - 1);
        assert TakeRows(cols, before, size - k)
            == (if t1.0.Success? then Success([c.value] + t1.0.value) else t1.0, t1.1);
        assert t1.0.Success? ==> taken + ([c.value] + t1.0.value) == (taken + [c.value]) + t1.0.value;
        taken := taken + [c.value];
        k := k + 1;
      }
      assert TakeRows(cols, rows, size - k) == (Success([]), rows);
      assert taken + [] == taken;
      r := Success(taken);
    }
  }
}

=== FILE: decoder.dfy ===
/**
 * The decoder that `execute`, `executemany` and `callproc` run over the
 * `(prefix, event, value)` triples of an incremental JSON parser. It skips to
 * the first map opened at `results.item`, then folds the remaining events into
 * the schema (prefix/value pairs) and the rows (lists of scalars), keeping one
 * flag: whether a map whose prefix mentions "schema" is open. Events are told
 * apart by substring tests on the prefix, exactly as written, not by their
 * position in the document.
 */
module ResultDecoder {
  import opened Wrappers
  import opened Text
  import opened Types

  /** The parser's event names, with the value each carries. */
  datatype Kind =
    | StartMap | EndMap | StartArray | EndArray
    | MapKey(key: string) | String(s: string) | Number(n: int) | Boolean(b: bool) | Null

  datatype Event = Event(prefix: string, kind: Kind)

  /** One entry of the schema: the prefix a scalar was found at and the scalar. */
  type Column = (string, Scalar)

  type Row = seq<Scalar>

  /** The value of a `string` or `number` event; the decoder keeps no other kind. */
  function ScalarOf(k: Kind): (r: Option<Scalar>)
    ensures r.Some? <==> k.String? || k.Number?
  {
    match k
    case String(s) => Some(Str(s))
    case Number(n) => Some(Num(n))
    case _ => None
  }

  /** The event the decoder skips to: `('results.item', 'start_map')`. */
  predicate IsResultStart(e: Event) {
    e.prefix == "results.item" && e.kind == StartMap
  }

  /** `event == 'start_map' and 'schema' in prefix`. */
  predicate OpensSchema(e: Event) {
    e.kind == StartMap && Contains(e.prefix, "schema")
  }

  /** `'rows.item' in prefix and event == 'start_array'`. */
  predicate OpensRow(e: Event) {
    Contains(e.prefix, "rows.item") && e.kind == StartArray
  }

  /** `prefix.endswith('.item') and event in ['string', 'number']`. */
  predicate IsItemScalar(e: Event) {
    EndsWith(e.prefix, ".item") && ScalarOf(e.kind).Some?
  }

  /**
   * How decoding fails: the stream ends before `results.item` opens
   * (StopIteration), or an item scalar arrives before any row is open
   * (IndexError on `self.rows[-1]`).
   */
  datatype DecodeError = ResultsNotFound | NoRowToExtend

  /** The loop's variables: the `inside_schema` flag and the two lists it fills. */
  datatype State = State(inSchema: bool, schema: seq<Column>, rows: seq<Row>)

  const Initial: State := State(false, [], [])

  /** One pass of the loop body: the `if`/`elif` chain over one event. */
  function Step(st: State, e: Event): (r: Result<State, DecodeError>)
    ensures r.Failure? <==> IsItemScalar(e) && !st.inSchema && st.rows == [] && !OpensRow(e)
  {
    if OpensSchema(e) then Success(st.(inSchema := true))
    else if e.kind == EndMap && st.inSchema then Success(st.(inSchema := false))
    else if st.inSchema && ScalarOf(e.kind).Some? then
      Success(st.(schema := st.schema + [(e.prefix, ScalarOf(e.kind).value)]))
    else if OpensRow(e) then Success(st.(rows := st.rows + [[]]))
    else if IsItemScalar(e) then
      if st.rows == [] then Failure(NoRowToExtend)
      else
        var last := |st.rows| - 1;
        Success(st.(rows := st.rows[last := st.rows[last] + [ScalarOf(e.kind).value]]))
    else Success(st)
  }

  /**
   * The loop state after the events, how many events were consumed without
   * raising, and the error that stopped it, if one did. On an error the state
   * is the one the failing event found: what was appended before stays.
   */
  datatype Progress = Progress(state: State, consumed: nat, error: Option<DecodeError>)

  function Fold(st: State, es: seq<Event>): (p: Progress)
    ensures p.consumed <= |es|
    ensures p.error.None? <==> p.consumed == |es|
    ensures p.error != Some(ResultsNotFound)
    decreases |es|
  {
    if es == [] then Progress(st, 0, None)
    else
      match Step(st, es[0])
      case Failure(err) => Progress(st, 0, Some(err))
      case Success(next) =>
        var p := Fold(next, es[1..]);
        p.(consumed := p.consumed + 1)
  }

  /** The index of the first `('results.item', 'start_map')` event. */
  function FindResultStart(es: seq<Event>): (r: Option<nat>)
    ensures r.Some? ==> r.value < |es| && IsResultStart(es[r.value])
    ensures r.Some? ==> forall j :: 0 <= j < r.value ==> !IsResultStart(es[j])
    ensures r.None? ==> forall j :: 0 <= j < |es| ==> !IsResultStart(es[j])
  {
    if es == [] then None
    else if IsResultStart(es[0]) then Some(0)
    else
      match FindResultStart(es[1..])
      case None => None
      case Some(k) => Some(k + 1)
  }

  /** What decoding leaves in `self.schema` and `self.rows`, and the error it raised, if any. */
  datatype Decoded = Decoded(schema: seq<Column>, rows: seq<Row>, error: Option<DecodeError>)

  /** The decoder as a whole, over the complete event stream of a 200 response. */
  function Decode(es: seq<Event>): (d: Decoded)
    ensures d.error == Some(ResultsNotFound) <==> forall j :: 0 <= j < |es| ==> !IsResultStart(es[j])
  {
    match FindResultStart(es)
    case None => Decoded([], [], Some(ResultsNotFound))
    case Some(k) =>
      var p := Fold(Initial, es[k + 1..]);
      Decoded(p.state.schema, p.state.rows, p.error)
  }

  // ----- Reference definitions, each following one concern of the loop -----

  /** The `inside_schema` flag after one event: only map events move it. */
  function SchemaFlag(flag: bool, e: Event): bool {
    if OpensSchema(e) then true else if e.kind == EndMap then false else flag
  }

  function FlagAfter(flag: bool, es: seq<Event>): bool
    decreases |es|
  {
    if es == [] then flag else FlagAfter(SchemaFlag(flag, es[0]), es[1..])
  }

  /** The schema entry one event contributes while the flag is up. */
  function SchemaPart(flag: bool, e: Event): seq<Column> {
    if flag && ScalarOf(e.kind).Some? then [(e.prefix, ScalarOf(e.kind).value)] else []
  }

  /** The string and number scalars met while a schema map is open, in stream order. */
  function SchemaValues(flag: bool, es: seq<Event>): seq<Column>
    decreases |es|
  {
    if es == [] then [] else SchemaPart(flag, es[0]) + SchemaValues(SchemaFlag(flag, es[0]), es[1..])
  }

  /** The number of events that open a row. */
  function RowStarts(es: seq<Event>): nat
    decreases |es|
  {
    if es == [] then 0 else (if OpensRow(es[0]) then 1 else 0) + RowStarts(es[1..])
  }

  /** The row scalar one event contributes while the flag is down. */
  function RowPart(flag: bool, e: Event): seq<Scalar> {
    if !flag && IsItemScalar(e) then [ScalarOf(e.kind).value] else []
  }

  /** The item scalars met while no schema map is open, in stream order. */
  function RowValues(flag: bool, es: seq<Event>): seq<Scalar>
    decreases |es|
  {
    if es == [] then [] else RowPart(flag, es[0]) + RowValues(SchemaFlag(flag, es[0]), es[1..])
  }

  /** All rows laid end to end. */
  function Flatten(rows: seq<Row>): seq<Scalar>
    decreases |rows|
  {
    if rows == [] then [] else Flatten(rows[..|rows| - 1]) + rows[|rows| - 1]
  }

  /** An item scalar that reaches the row branch while no row has been opened yet. */
  predicate OrphanAt(st: State, es: seq<Event>, j: int)
    requires 0 <= j < |es|
  {
    IsItemScalar(es[j]) && !FlagAfter(st.inSchema, es[..j]) && |st.rows| + RowStarts(es[..j]) == 0
  }

  // ----- What the fold computes -----

  lemma PrefixStep(es: seq<Event>, n: nat)
    requires 0 < n <= |es|
    ensures es[..n] == [es[0]] + es[1..][..n - 1]
  {
  }

  /** What one successful step does to each part of the state. */
  lemma StepEffect(st: State, e: Event)
    requires Step(st, e).Success?
    ensures var next := Step(st, e).value; var last := |st.rows| - 1;
      next.inSchema == SchemaFlag(st.inSchema, e) &&
      next.schema == st.schema + SchemaPart(st.inSchema, e) &&
      |next.rows| == |st.rows| + (if OpensRow(e) then 1 else 0) &&
      Flatten(next.rows) == Flatten(st.rows) + RowPart(st.inSchema, e) &&
      (st.rows != [] && !OpensRow(e) ==> next.rows == st.rows[last := st.rows[last] + RowPart(st.inSchema, e)])
  {
    StepSchemaEffect(st, e);
    StepRowsEffect(st, e);
  }

  /** A step moves the flag as `SchemaFlag` says and appends what `SchemaPart` says to the schema. */
  lemma StepSchemaEffect(st: State, e: Event)
    requires Step(st, e).Success?
    ensures var next := Step(st, e).value;
      next.inSchema == SchemaFlag(st.inSchema, e) && next.schema == st.schema + SchemaPart(st.inSchema, e)
  {
    if !(st.inSchema && ScalarOf(e.kind).Some?) || OpensSchema(e) || (e.kind == EndMap && st.inSchema) {
      assert st.schema + [] == st.schema;
    }
  }

  /** A step opens a row on a row opening and otherwise only extends the last row by `RowPart`. */
  lemma StepRowsEffect(st: State, e: Event)
    requires Step(st, e).Success?
    ensures var next := Step(st, e).value; var last := |st.rows| - 1;
      |next.rows| == |st.rows| + (if OpensRow(e) then 1 else 0) &&
      Flatten(next.rows) == Flatten(st.rows) + RowPart(st.inSchema, e) &&
      (st.rows != [] && !OpensRow(e) ==> next.rows == st.rows[last := st.rows[last] + RowPart(st.inSchema, e)])
  {
    var last := |st.rows| - 1;
    if OpensSchema(e) || (e.kind == EndMap && st.inSchema) || (st.inSchema && ScalarOf(e.kind).Some?) {
      assert RowPart(st.inSchema, e) == [];
      assert Flatten(st.rows) + [] == Flatten(st.rows);
      if st.rows != [] {
        assert st.rows[last] + [] == st.rows[last];
      }
    } else if OpensRow(e) {
      FlattenOpen(st.rows);
    } else if IsItemScalar(e) {
      FlattenExtend(st.rows, ScalarOf(e.kind).value);
    } else {
      assert Flatten(st.rows) + [] == Flatten(st.rows);
      if st.rows != [] {
        assert st.rows[last] + [] == st.rows[last];
      }
    }
  }

  /** A successful first step hands the rest of the stream to the next state. */
  lemma FoldCons(st: State, es: seq<Event>)
    requires es != [] && Step(st, es[0]).Success?
    ensures var q := Fold(Step(st, es[0]).value, es[1..]);
      Fold(st, es) == q.(consumed := q.consumed + 1)
  {
  }

  /** A failing first step stops the fold where it is. */
  lemma FoldStopsHere(st: State, es: seq<Event>)
    requires es != [] && Step(st, es[0]).Failure?
    ensures Fold(st, es) == Progress(st, 0, Some(NoRowToExtend))
  {
  }

  lemma Associative<T>(a: seq<T>, b: seq<T>, c: seq<T>)
    ensures (a + b) + c == a + (b + c)
  {
  }

  /** Unfolds each reference definition by one event. */
  lemma ConsDefs(flag: bool, e: Event, b: seq<Event>)
    ensures var flag' := SchemaFlag(flag, e);
      && FlagAfter(flag, [e] + b) == FlagAfter(flag', b)
      && SchemaValues(flag, [e] + b) == SchemaPart(flag, e) + SchemaValues(flag', b)
      && RowStarts([e] + b) == (if OpensRow(e) then 1 else 0) + RowStarts(b)
      && RowValues(flag, [e] + b) == RowPart(flag, e) + RowValues(flag', b)
  {
    assert ([e] + b)[0] == e && ([e] + b)[1..] == b;
  }

  /** The schema entries of one event and of those after it, concatenated. */
  lemma SchemaStep(st: State, next: State, e: Event, b: seq<Event>, schema: seq<Column>)
    requires next.inSchema == SchemaFlag(st.inSchema, e)
    requires next.schema == st.schema + SchemaPart(st.inSchema, e)
    requires schema == next.schema + SchemaValues(next.inSchema, b)
    ensures schema == st.schema + SchemaValues(st.inSchema, [e] + b)
  {
    ConsDefs(st.inSchema, e, b);
    Associative(st.schema, SchemaPart(st.inSchema, e), SchemaValues(next.inSchema, b));
  }

  /** The row scalars of one event and of those after it, concatenated. */
  lemma RowValuesStep(st: State, next: State, e: Event, b: seq<Event>, values: seq<Scalar>)
    requires next.inSchema == SchemaFlag(st.inSchema, e)
    requires Flatten(next.rows) == Flatten(st.rows) + RowPart(st.inSchema, e)
    requires values == Flatten(next.rows) + RowValues(next.inSchema, b)
    ensures values == Flatten(st.rows) + RowValues(st.inSchema, [e] + b)
  {
    ConsDefs(st.inSchema, e, b);
    Associative(Flatten(st.rows), RowPart(st.inSchema, e), RowValues(next.inSchema, b));
  }

  /** The flag follows `SchemaFlag`: only map openings and closings move it. */
  lemma {:induction false} FoldTracksFlag(st: State, es: seq<Event>)
    ensures var p := Fold(st, es); p.state.inSchema == FlagAfter(st.inSchema, es[..p.consumed])
    decreases |es|
  {
    if es != [] && Step(st, es[0]).Success? {
      var next := Step(st, es[0]).value;
      var q := Fold(next, es[1..]);
      FoldCons(st, es);
      StepEffect(st, es[0]);
      FoldTracksFlag(next, es[1..]);
      PrefixStep(es, q.consumed + 1);
      ConsDefs(st.inSchema, es[0], es[1..][..q.consumed]);
    }
  }

  /** The schema is the scalars read while a schema map is open. */
  lemma {:induction false} FoldTracksSchema(st: State, es: seq<Event>)
    ensures var p := Fold(st, es); p.state.schema == st.schema + SchemaValues(st.inSchema, es[..p.consumed])
    decreases |es|
  {
    if es != [] && Step(st, es[0]).Success? {
      var next := Step(st, es[0]).value;
      var q := Fold(next, es[1..]);
      FoldCons(st, es);
      StepEffect(st, es[0]);
      FoldTracksSchema(next, es[1..]);
      PrefixStep(es, q.consumed + 1);
      SchemaStep(st, next, es[0], es[1..][..q.consumed], q.state.schema);
    }
  }

  /** Every row-opening event adds one row, and nothing else adds one. */
  lemma {:induction false} FoldCountsRows(st: State, es: seq<Event>)
    ensures var p := Fold(st, es);
      |p.state.rows| == |st.rows| + RowStarts(es[..p.consumed])
    decreases |es|
  {
    if es != [] && Step(st, es[0]).Success? {
      var next := Step(st, es[0]).value;
      var q := Fold(next, es[1..]);
      FoldCons(st, es);
      StepEffect(st, es[0]);
      FoldCountsRows(next, es[1..]);
      PrefixStep(es, q.consumed + 1);
      ConsDefs(st.inSchema, es[0], es[1..][..q.consumed]);
    }
  }

  lemma FlattenExtend(rows: seq<Row>, x: Scalar)
    requires rows != []
    ensures var last := |rows| - 1;
      Flatten(rows[last := rows[last] + [x]]) == Flatten(rows) + [x]
  {
    var last := |rows| - 1;
    var rows' := rows[last := rows[last] + [x]];
    assert rows'[..last] == rows[..last];
  }

  lemma FlattenOpen(rows: seq<Row>)
    ensures Flatten(rows + [[]]) == Flatten(rows)
  {
    assert (rows + [[]])[..|rows|] == rows;
  }

  /** Row scalars land in the rows in stream order, none lost and none added. */
  lemma {:induction false} FoldCollectsRowValues(st: State, es: seq<Event>)
    ensures var p := Fold(st, es);
      Flatten(p.state.rows) == Flatten(st.rows) + RowValues(st.inSchema, es[..p.consumed])
    decreases |es|
  {
    if es != [] && Step(st, es[0]).Success? {
      var next := Step(st, es[0]).value;
      var q := Fold(next, es[1..]);
      FoldCons(st, es);
      StepEffect(st, es[0]);
      FoldCollectsRowValues(next, es[1..]);
      PrefixStep(es, q.consumed + 1);
      RowValuesStep(st, next, es[0], es[1..][..q.consumed], Flatten(q.state.rows));
    }
  }

  /** The fold stops at the first orphan item scalar, and only there. */
  lemma {:induction false} FoldStopsAtFirstOrphan(st: State, es: seq<Event>)
    ensures var p := Fold(st, es);
      (p.error.Some? ==> p.consumed < |es| && OrphanAt(st, es, p.consumed)) &&
      forall j :: 0 <= j < p.consumed ==> !OrphanAt(st, es, j)
    decreases |es|
  {
    if es != [] {
      assert es[..0] == [];
      if Step(st, es[0]).Failure? {
        FoldStopsHere(st, es);
      } else {
        var next := Step(st, es[0]).value;
        FoldCons(st, es);
        StepEffect(st, es[0]);
        FoldStopsAtFirstOrphan(next, es[1..]);
        OrphanStep(st, next, es, Fold(next, es[1..]), Fold(st, es));
      }
    }
  }

  lemma OrphanStep(st: State, next: State, es: seq<Event>, q: Progress, p: Progress)
    requires es != [] && q.consumed < |es| && p == q.(consumed := q.consumed + 1)
    requires !OrphanAt(st, es, 0)
    requires next.inSchema == SchemaFlag(st.inSchema, es[0])
    requires |next.rows| == |st.rows| + (if OpensRow(es[0]) then 1 else 0)
    requires q.error.Some? ==> q.consumed < |es| - 1 && OrphanAt(next, es[1..], q.consumed)
    requires forall j :: 0 <= j < q.consumed ==> !OrphanAt(next, es[1..], j)
    ensures p.error.Some? ==> p.consumed < |es| && OrphanAt(st, es, p.consumed)
    ensures forall j :: 0 <= j < p.consumed ==> !OrphanAt(st, es, j)
  {
    forall j | 1 <= j < |es|
      ensures OrphanAt(st, es, j) == OrphanAt(next, es[1..], j - 1)
    {
      PrefixStep(es, j);
      ConsDefs(st.inSchema, es[0], es[1..][..j - 1]);
    }
  }

  /** Decoding the concatenation is decoding the first part, then the second from where it left off. */
  lemma {:induction false} FoldConcat(st: State, a: seq<Event>, b: seq<Event>)
    ensures var pa := Fold(st, a);
      Fold(st, a + b) ==
        if pa.error.Some? then pa
        else var pb := Fold(pa.state, b); pb.(consumed := |a| + pb.consumed)
    decreases |a|
  {
    if a == [] {
      assert a + b == b;
    } else {
      assert (a + b)[0] == a[0];
      assert (a + b)[1..] == a[1..] + b;
      if Step(st, a[0]).Success? {
        FoldConcat(Step(st, a[0]).value, a[1..], b);
      }
    }
  }

  /**
   * Once a row is open, a stretch of events that opens no further row puts
   * every item scalar outside a schema map into that last row, and fails on none.
   */
  lemma {:induction false} FoldFillsLastRow(st: State, es: seq<Event>)
    requires st.rows != [] && RowStarts(es) == 0
    ensures var p := Fold(st, es); var last := |st.rows| - 1;
      p.error.None? &&
      p.state.rows == st.rows[last := st.rows[last] + RowValues(st.inSchema, es)]
    decreases |es|
  {
    var last := |st.rows| - 1;
    if es == [] {
      assert st.rows[last] + [] == st.rows[last];
    } else {
      var e := es[0];
      var next := Step(st, e).value;
      StepEffect(st, e);
      FoldFillsLastRow(next, es[1..]);
      assert RowValues(st.inSchema, es) == RowPart(st.inSchema, e) + RowValues(next.inSchema, es[1..]);
      assert next.rows[last] + RowValues(next.inSchema, es[1..])
          == st.rows[last] + RowValues(st.inSchema, es);
    }
  }

  /**
   * A `rows.item` array opening always opens a new row. The rows before it
   * stay as they are, and the new row ends up holding exactly the item
   * scalars read outside schema maps until the next row opens.
   */
  lemma FoldOpensRowThenFills(st: State, a: seq<Event>, e: Event, b: seq<Event>)
    requires Fold(st, a).error.None? && OpensRow(e) && RowStarts(b) == 0
    ensures var sa := Fold(st, a).state; var p := Fold(st, a + [e] + b);
      p.error.None? && p.state.rows == sa.rows + [RowValues(sa.inSchema, b)]
  {
    var sa := Fold(st, a).state;
    assert a + [e] + b == a + ([e] + b);
    FoldConcat(st, a, [e] + b);
    var next := sa.(rows := sa.rows + [[]]);
    assert Step(sa, e) == Success(next);
    assert ([e] + b)[0] == e && ([e] + b)[1..] == b;
    FoldCons(sa, [e] + b);
    FoldFillsLastRow(next, b);
    assert [] + RowValues(sa.inSchema, b) == RowValues(sa.inSchema, b);
    assert next.rows[|sa.rows| := RowValues(sa.inSchema, b)] == sa.rows + [RowValues(sa.inSchema, b)];
  }

  // ----- The decoder as a whole -----

  /** Whatever precedes the first result map is skipped unread. */
  lemma DecodeSkipsPrelude(pre: seq<Event>, post: seq<Event>)
    requires forall j :: 0 <= j < |pre| ==> !IsResultStart(pre[j])
    ensures var p := Fold(Initial, post);
      Decode(pre + [Event("results.item", StartMap)] + post) == Decoded(p.state.schema, p.state.rows, p.error)
  {
    var es := pre + [Event("results.item", StartMap)] + post;
    assert IsResultStart(es[|pre|]);
    assert FindResultStart(es) == Some(|pre|);
    assert es[|pre| + 1..] == post;
  }

  /**
   * After the first result map opens: the schema is the scalars read inside
   * schema maps, there is one row per row-opening event, the rows laid end to
   * end are the item scalars read outside schema maps, and decoding fails
   * exactly when some item scalar comes before the first row opens.
   */
  lemma DecodeContents(es: seq<Event>, k: nat)
    requires FindResultStart(es) == Some(k)
    ensures var rest := es[k + 1..]; var p := Fold(Initial, rest); var d := Decode(es);
      d.schema == SchemaValues(false, rest[..p.consumed]) &&
      |d.rows| == RowStarts(rest[..p.consumed]) &&
      Flatten(d.rows) == RowValues(false, rest[..p.consumed]) &&
      (d.error.Some? <==> exists j :: 0 <= j < |rest| && OrphanAt(Initial, rest, j))
  {
    var rest := es[k + 1..];
    FoldTracksSchema(Initial, rest);
    FoldCountsRows(Initial, rest);
    FoldCollectsRowValues(Initial, rest);
    FoldStopsAtFirstOrphan(Initial, rest);
  }
}

=== FILE: strptime.dfy ===
/**
 * `datetime.strptime` for the three formats the type coercion uses:
 * `%Y-%m-%d`, `%H:%M:%S` and `%Y-%m-%d %H:%M:%S`.
 *
 * CPython turns a format into a regular expression, one alternation per
 * directive (`%m` is `1[0-2]|0[1-9]|[1-9]`, for instance), matches it at the
 * start of the text, rejects text left over after the match, and then builds
 * the date and time, which rejects impossible days and seconds 60 and 61.
 * Each alternation lists its longest alternatives first and every directive is
 * followed by a non-digit separator or by the end of the text, so the first
 * alternative that matches is the only one that can lead to a full match; the
 * matchers below therefore take the first alternative that matches.
 */
module Strptime {
  import opened Wrappers
  import opened Text

  datatype Date = Date(year: int, month: int, day: int)

  datatype Clock = Clock(hour: int, minute: int, second: int)

  predicate IsLeapYear(y: int) {
    y % 4 == 0 && (y % 100 != 0 || y % 400 == 0)
  }

  function DaysInMonth(y: int, m: int): (n: int)
    requires 1 <= m <= 12
    ensures 28 <= n <= 31
  {
    if m == 2 then (if IsLeapYear(y) then 29 else 28)
    else if m == 4 || m == 6 || m == 9 || m == 11 then 30
    else 31
  }

  /** A day the `date` constructor accepts (years 1 to 9999 of the Gregorian calendar). */
  predicate ValidDate(d: Date) {
    1 <= d.year <= 9999 && 1 <= d.month <= 12 && 1 <= d.day <= DaysInMonth(d.year, d.month)
  }

  /** A time of day the `time` constructor accepts. */
  predicate ValidClock(c: Clock) {
    0 <= c.hour < 24 && 0 <= c.minute < 60 && 0 <= c.second < 60
  }

  /** The value a directive matched and the position just after it. */
  datatype Field = Field(value: nat, next: nat)

  predicate CharIn(s: string, i: int, lo: char, hi: char) {
    0 <= i < |s| && lo <= s[i] <= hi
  }

  predicate CharIs(s: string, i: int, c: char) {
    0 <= i < |s| && s[i] == c
  }

  function DigitAt(s: string, i: int): nat
    requires CharIn(s, i, '0', '9')
  {
    DigitValue(s[i])
  }

  /** Two digits at `i` read as one number. */
  function TwoDigits(s: string, i: int): nat
    requires CharIn(s, i, '0', '9') && CharIn(s, i + 1, '0', '9')
  {
    10 * DigitAt(s, i) + DigitAt(s, i + 1)
  }

  /** `%Y`: `\d\d\d\d`. */
  function MatchYear(s: string, i: nat): (r: Option<Field>)
    ensures r.Some? ==> r.value.value <= 9999 && r.value.next == i + 4 <= |s|
  {
    if CharIn(s, i, '0', '9') && CharIn(s, i + 1, '0', '9') && CharIn(s, i + 2, '0', '9')
       && CharIn(s, i + 3, '0', '9')
    then Some(Field(100 * TwoDigits(s, i) + TwoDigits(s, i + 2), i + 4))
    else None
  }

  /** `%m`: `1[0-2]|0[1-9]|[1-9]`. */
  function MatchMonth(s: string, i: nat): (r: Option<Field>)
    ensures r.Some? ==> 1 <= r.value.value <= 12 && i < r.value.next <= |s|
  {
    if CharIs(s, i, '1') && CharIn(s, i + 1, '0', '2') then Some(Field(TwoDigits(s, i), i + 2))
    else if CharIs(s, i, '0') && CharIn(s, i + 1, '1', '9') then Some(Field(TwoDigits(s, i), i + 2))
    else if CharIn(s, i, '1', '9') then Some(Field(DigitAt(s, i), i + 1))
    else None
  }

  /** `%d`: `3[01]|[12]\d|0[1-9]|[1-9]| [1-9]`. */
  function MatchDay(s: string, i: nat): (r: Option<Field>)
    ensures r.Some? ==> 1 <= r.value.value <= 31 && i < r.value.next <= |s|
  {
    if CharIs(s, i, '3') && CharIn(s, i + 1, '0', '1') then Some(Field(TwoDigits(s, i), i + 2))
    else if CharIn(s, i, '1', '2') && CharIn(s, i + 1, '0', '9') then Some(Field(TwoDigits(s, i), i + 2))
    else if CharIs(s, i, '0') && CharIn(s, i + 1, '1', '9') then Some(Field(TwoDigits(s, i), i + 2))
    else if CharIn(s, i, '1', '9') then Some(Field(DigitAt(s, i), i + 1))
    else if CharIs(s, i, ' ') && CharIn(s, i + 1, '1', '9') then Some(Field(DigitAt(s, i + 1), i + 2))
    else None
  }

  /** `%H`: `2[0-3]|[0-1]\d|\d`. */
  function MatchHour(s: string, i: nat): (r: Option<Field>)
    ensures r.Some? ==> r.value.value < 24 && i < r.value.next <= |s|
  {
    if CharIs(s, i, '2') && CharIn(s, i + 1, '0', '3') then Some(Field(TwoDigits(s, i), i + 2))
    else if CharIn(s, i, '0', '1') && CharIn(s, i + 1, '0', '9') then Some(Field(TwoDigits(s, i), i + 2))
    else if CharIn(s, i, '0', '9') then Some(Field(DigitAt(s, i), i + 1))
    else None
  }

  /** `%M`: `[0-5]\d|\d`. */
  function MatchMinute(s: string, i: nat): (r: Option<Field>)
    ensures r.Some? ==> r.value.value < 60 && i < r.value.next <= |s|
  {
    if CharIn(s, i, '0', '5') && CharIn(s, i + 1, '0', '9') then Some(Field(TwoDigits(s, i), i + 2))
    else if CharIn(s, i, '0', '9') then Some(Field(DigitAt(s, i), i + 1))
    else None
  }

  /** `%S`: `6[0-1]|[0-5]\d|\d`, which lets 60 and 61 through to the constructor. */
  function MatchSecond(s: string, i: nat): (r: Option<Field>)
    ensures r.Some? ==> r.value.value <= 61 && i < r.value.next <= |s|
  {
    if CharIs(s, i, '6') && CharIn(s, i + 1, '0', '1') then Some(Field(TwoDigits(s, i), i + 2))
    else if CharIn(s, i, '0', '5') && CharIn(s, i + 1, '0', '9') then Some(Field(TwoDigits(s, i), i + 2))
    else if CharIn(s, i, '0', '9') then Some(Field(DigitAt(s, i), i + 1))
    else None
  }

  /** `\s+`, which a blank in the format stands for: the position after the blanks, if there is one. */
  function SkipSpaces(s: string, i: nat): (j: nat)
    requires i <= |s|
    ensures i <= j <= |s|
    ensures forall k :: i <= k < j ==> IsSpace(s[k])
    ensures j == |s| || !IsSpace(s[j])
    decreases |s| - i
  {
    if i < |s| && IsSpace(s[i]) then SkipSpaces(s, i + 1) else i
  }

  /** `%Y-%m-%d` matched at `i`, before the calendar check. */
  function MatchDate(s: string, i: nat): (r: Option<(Date, nat)>)
    ensures r.Some? ==> r.value.1 <= |s|
  {
    var y :- MatchYear(s, i);
    if !CharIs(s, y.next, '-') then None else
    var m :- MatchMonth(s, y.next + 1);
    if !CharIs(s, m.next, '-') then None else
    var d :- MatchDay(s, m.next + 1);
    Some((Date(y.value, m.value, d.value), d.next))
  }

  /** `%H:%M:%S` matched at `i`, before the leap-second check. */
  function MatchClock(s: string, i: nat): Option<(Clock, nat)> {
    var h :- MatchHour(s, i);
    if !CharIs(s, h.next, ':') then None else
    var m :- MatchMinute(s, h.next + 1);
    if !CharIs(s, m.next, ':') then None else
    var sec :- MatchSecond(s, m.next + 1);
    Some((Clock(h.value, m.value, sec.value), sec.next))
  }

  /** `datetime.strptime(s, '%Y-%m-%d').date()`; None where it raises ValueError. */
  function ParseDate(s: string): (r: Option<Date>)
    ensures r.Some? ==> ValidDate(r.value)
  {
    var (d, j) :- MatchDate(s, 0);
    if j == |s| && ValidDate(d) then Some(d) else None
  }

  /** `datetime.strptime(s, '%H:%M:%S').time()`; None where it raises ValueError. */
  function ParseTime(s: string): (r: Option<Clock>)
    ensures r.Some? ==> ValidClock(r.value)
  {
    var (c, j) :- MatchClock(s, 0);
    if j == |s| && c.second < 60 then Some(c) else None
  }

  /** `datetime.strptime(s, '%Y-%m-%d %H:%M:%S')`; None where it raises ValueError. */
  function ParseTimestamp(s: string): (r: Option<(Date, Clock)>)
    ensures r.Some? ==> ValidDate(r.value.0) && ValidClock(r.value.1)
  {
    var (d, j) :- MatchDate(s, 0);
    var k := SkipSpaces(s, j);
    if k == j then None else
    var (c, end) :- MatchClock(s, k);
    if end == |s| && ValidDate(d) && c.second < 60 then Some((d, c)) else None
  }

  /** `%02d`. */
  function Pad2(n: nat): (s: string)
    requires n < 100
    ensures |s| == 2
  {
    [DigitChar(n / 10), DigitChar(n % 10)]
  }

  /** `%04d`. */
  function Pad4(n: nat): (s: string)
    requires n < 10000
    ensures |s| == 4
  {
    Pad2(n / 100) + Pad2(n % 100)
  }

  /** `date.isoformat()`: `YYYY-MM-DD`. */
  function FormatDate(d: Date): (s: string)
    requires 0 <= d.year <= 9999 && 1 <= d.month <= 12 && 1 <= d.day <= 31
    ensures |s| == 10
  {
    Pad4(d.year) + "-" + Pad2(d.month) + "-" + Pad2(d.day)
  }

  /** `time.isoformat()`: `HH:MM:SS`. */
  function FormatClock(c: Clock): (s: string)
    requires ValidClock(c)
    ensures |s| == 8
  {
    Pad2(c.hour) + ":" + Pad2(c.minute) + ":" + Pad2(c.second)
  }

  /** `str(datetime)`: `YYYY-MM-DD HH:MM:SS`. */
  function FormatTimestamp(d: Date, c: Clock): (s: string)
    requires ValidDate(d) && ValidClock(c)
    ensures |s| == 19
  {
    FormatDate(d) + " " + FormatClock(c)
  }

  lemma SubSlice(s: string, i: nat, j: nat, a: nat, b: nat)
    requires i <= j <= |s| && a <= b <= j - i
    ensures s[i..j][a..b] == s[i + a..i + b]
  {
    assert forall k :: 0 <= k < b - a ==> s[i..j][a..b][k] == s[i + a + k];
  }

  /** Two digits spelling `n` at `i` read back as `n`. */
  lemma TwoDigitsRead(s: string, i: nat, n: nat)
    requires n < 100 && i + 2 <= |s| && s[i..i + 2] == Pad2(n)
    ensures CharIn(s, i, '0', '9') && CharIn(s, i + 1, '0', '9') && TwoDigits(s, i) == n
    ensures s[i] == DigitChar(n / 10) && s[i + 1] == DigitChar(n % 10)
  {
    assert s[i] == s[i..i + 2][0] && s[i + 1] == s[i..i + 2][1];
  }

  lemma {:induction false} YearRead(s: string, i: nat, y: nat)
    requires y <= 9999 && i + 4 <= |s| && s[i..i + 4] == Pad4(y)
    ensures MatchYear(s, i) == Some(Field(y, i + 4))
  {
    assert s[i..i + 2] == s[i..i + 4][..2] == Pad2(y / 100);
    assert s[i + 2..i + 2 + 2] == s[i..i + 4][2..] == Pad2(y % 100);
    TwoDigitsRead(s, i, y / 100);
    TwoDigitsRead(s, i + 2, y % 100);
  }

  lemma {:induction false} MonthRead(s: string, i: nat, m: nat)
    requires 1 <= m <= 12 && i + 2 <= |s| && s[i..i + 2] == Pad2(m)
    ensures MatchMonth(s, i) == Some(Field(m, i + 2))
  {
    TwoDigitsRead(s, i, m);
  }

  lemma {:induction false} DayRead(s: string, i: nat, d: nat)
    requires 1 <= d <= 31 && i + 2 <= |s| && s[i..i + 2] == Pad2(d)
    ensures MatchDay(s, i) == Some(Field(d, i + 2))
  {
    TwoDigitsRead(s, i, d);
  }

  lemma {:induction false} HourRead(s: string, i: nat, h: nat)
    requires h < 24 && i + 2 <= |s| && s[i..i + 2] == Pad2(h)
    ensures MatchHour(s, i) == Some(Field(h, i + 2))
  {
    TwoDigitsRead(s, i, h);
  }

  lemma {:induction false} MinuteRead(s: string, i: nat, m: nat)
    requires m < 60 && i + 2 <= |s| && s[i..i + 2] == Pad2(m)
    ensures MatchMinute(s, i) == Some(Field(m, i + 2))
  {
    TwoDigitsRead(s, i, m);
  }

  lemma {:induction false} SecondRead(s: string, i: nat, sec: nat)
    requires sec < 60 && i + 2 <= |s| && s[i..i + 2] == Pad2(sec)
    ensures MatchSecond(s, i) == Some(Field(sec, i + 2))
  {
    TwoDigitsRead(s, i, sec);
  }

  /** The `%Y-%m-%d` matcher reads an ISO date spelled at `i` back field by field. */
  lemma {:induction false} DateRead(s: string, i: nat, d: Date)
    requires 0 <= d.year <= 9999 && 1 <= d.month <= 12 && 1 <= d.day <= 31
    requires i + 10 <= |s| && s[i..i + 10] == FormatDate(d)
    ensures MatchDate(s, i) == Some((d, i + 10))
  {
    var f := FormatDate(d);
    assert s[i..i + 4] == f[..4] == Pad4(d.year);
    assert s[i + 4] == f[4] == '-';
    SubSlice(s, i, i + 10, 5, 7);
    assert s[i + 5..i + 5 + 2] == f[5..7] == Pad2(d.month);
    assert s[i + 7] == f[7] == '-';
    assert s[i + 8..i + 8 + 2] == f[8..] == Pad2(d.day);
    YearRead(s, i, d.year);
    MonthRead(s, i + 5, d.month);
    DayRead(s, i + 8, d.day);
  }

  /** The `%H:%M:%S` matcher reads an ISO time spelled at `i` back field by field. */
  lemma {:induction false} ClockRead(s: string, i: nat, c: Clock)
    requires ValidClock(c) && i + 8 <= |s| && s[i..i + 8] == FormatClock(c)
    ensures MatchClock(s, i) == Some((c, i + 8))
  {
    var f := FormatClock(c);
    assert s[i..i + 2] == f[..2] == Pad2(c.hour);
    assert s[i + 2] == f[2] == ':';
    SubSlice(s, i, i + 8, 3, 5);
    assert s[i + 3..i + 3 + 2] == f[3..5] == Pad2(c.minute);
    assert s[i + 5] == f[5] == ':';
    assert s[i + 6..i + 6 + 2] == f[6..] == Pad2(c.second);
    HourRead(s, i, c.hour);
    MinuteRead(s, i + 3, c.minute);
    SecondRead(s, i + 6, c.second);
  }

  /** Parsing the ISO spelling of a valid date gives the date back. */
  lemma {:induction false} DateRoundTrip(d: Date)
    requires ValidDate(d)
    ensures ParseDate(FormatDate(d)) == Some(d)
  {
    var s := FormatDate(d);
    assert s[0..10] == s;
    DateRead(s, 0, d);
  }

  /**
   * A day past the end of its month (30 February, 31 April) is matched by the
   * format but refused by the calendar.
   */
  lemma {:induction false} DateRejectsDayPastMonthEnd(d: Date)
    requires 1 <= d.year <= 9999 && 1 <= d.month <= 12
    requires DaysInMonth(d.year, d.month) < d.day <= 31
    ensures ParseDate(FormatDate(d)) == None
  {
    var s := FormatDate(d);
    assert s[0..10] == s;
    DateRead(s, 0, d);
  }

  /** Parsing the ISO spelling of a valid time of day gives it back. */
  lemma {:induction false} TimeRoundTrip(c: Clock)
    requires ValidClock(c)
    ensures ParseTime(FormatClock(c)) == Some(c)
  {
    var s := FormatClock(c);
    assert s[0..8] == s;
    ClockRead(s, 0, c);
  }

  /** Parsing `str(datetime)` of a valid date and time gives both back. */
  lemma {:induction false} TimestampRoundTrip(d: Date, c: Clock)
    requires ValidDate(d) && ValidClock(c)
    ensures ParseTimestamp(FormatTimestamp(d, c)) == Some((d, c))
  {
    var s := FormatTimestamp(d, c);
    assert s[0..10] == FormatDate(d);
    DateRead(s, 0, d);
    assert s[10] == ' ';
    assert SkipSpaces(s, 11) == 11 by { assert !IsSpace(s[11]) by { TwoDigitsRead(s, 11, c.hour); } }
    assert SkipSpaces(s, 10) == 11;
    assert s[11..11 + 8] == FormatClock(c);
    ClockRead(s, 11, c);
  }

  // ----- What each format accepts, stated without the matchers -----

  /** How `%m`, `%H`, `%M` and `%S` may spell `v`: two digits, or one digit when `v` is below ten. */
  predicate SpellsTwo(t: string, v: nat) {
    (v < 100 && t == Pad2(v)) || (v < 10 && t == [DigitChar(v)])
  }

  /** How `%d` may spell `v`: as `%m` does, or a blank followed by one non-zero digit. */
  predicate SpellsDay(t: string, v: nat) {
    SpellsTwo(t, v) || (1 <= v < 10 && t == [' ', DigitChar(v)])
  }

  /** `t` is `d` written in `%Y-%m-%d`. */
  ghost predicate SpellsDate(t: string, d: Date) {
    && 0 <= d.year <= 9999 && d.month >= 0 && d.day >= 0
    && exists m, dd :: t == Pad4(d.year) + "-" + m + "-" + dd && SpellsTwo(m, d.month) && SpellsDay(dd, d.day)
  }

  /** `t` is `c` written in `%H:%M:%S`. */
  ghost predicate SpellsClock(t: string, c: Clock) {
    && c.hour >= 0 && c.minute >= 0 && c.second >= 0
    && exists h, m, sec :: t == h + ":" + m + ":" + sec
         && SpellsTwo(h, c.hour) && SpellsTwo(m, c.minute) && SpellsTwo(sec, c.second)
  }

  /**
   * `t` is `d` and `c` written in `%Y-%m-%d %H:%M:%S`, the blank standing for
   * any run of whitespace: the date up to `j`, whitespace from `j` to `k`, the
   * time from `k` on.
   */
  ghost predicate SpellsTimestamp(t: string, d: Date, c: Clock) {
    exists j, k :: 0 <= j < k <= |t| && SpellsDate(t[0..j], d) && SpellsClock(t[k..|t|], c)
      && forall x :: j <= x < k ==> IsSpace(t[x])
  }

  lemma DigitRoundTrip(c: char)
    requires IsDigit(c)
    ensures DigitChar(DigitValue(c)) == c
  {
  }

  /** Two digits read by the matchers are the `%02d` spelling of what they read. */
  lemma TwoDigitsSpelled(s: string, i: int)
    requires CharIn(s, i, '0', '9') && CharIn(s, i + 1, '0', '9')
    ensures TwoDigits(s, i) < 100 && s[i..i + 2] == Pad2(TwoDigits(s, i))
  {
    var a := DigitAt(s, i);
    var b := DigitAt(s, i + 1);
    assert (10 * a + b) / 10 == a && (10 * a + b) % 10 == b;
    DigitRoundTrip(s[i]);
    DigitRoundTrip(s[i + 1]);
    assert s[i..i + 2] == [s[i], s[i + 1]];
  }

  lemma OneDigitSpelled(s: string, i: int)
    requires CharIn(s, i, '0', '9')
    ensures DigitAt(s, i) < 10 && s[i..i + 1] == [DigitChar(DigitAt(s, i))]
  {
    DigitRoundTrip(s[i]);
  }

  lemma OneDigitRead(s: string, i: nat, v: nat)
    requires v < 10 && i + 1 <= |s| && s[i..i + 1] == [DigitChar(v)]
    ensures CharIn(s, i, '0', '9') && DigitAt(s, i) == v && s[i] == DigitChar(v)
  {
    assert s[i] == s[i..i + 1][0];
  }

  /** Where `u + v` lies in `s` at `i`, `u` lies at `i` and `v` right after it. */
  lemma SplitSlice(s: string, i: nat, u: string, v: string)
    requires i + |u| + |v| <= |s| && s[i..i + |u| + |v|] == u + v
    ensures s[i..i + |u|] == u && s[i + |u|..i + |u| + |v|] == v
  {
    SubSlice(s, i, i + |u| + |v|, 0, |u|);
    SubSlice(s, i, i + |u| + |v|, |u|, |u| + |v|);
    assert (u + v)[..|u|] == u && (u + v)[|u|..] == v;
  }

  /** A spelling of `%m`, `%H`, `%M` or `%S` starts with a digit. */
  lemma SpellsTwoStartsWithDigit(t: string, v: nat)
    requires SpellsTwo(t, v)
    ensures |t| > 0 && IsDigit(t[0])
  {
  }

  /** What `%Y` matched is the `%04d` spelling of its value. */
  lemma YearSpelled(s: string, i: nat)
    ensures var r := MatchYear(s, i); r.Some? ==> s[i..i + 4] == Pad4(r.value.value)
  {
    if MatchYear(s, i).Some? {
      TwoDigitsSpelled(s, i);
      TwoDigitsSpelled(s, i + 2);
      var hi := TwoDigits(s, i);
      var lo := TwoDigits(s, i + 2);
      assert (100 * hi + lo) / 100 == hi && (100 * hi + lo) % 100 == lo;
      assert s[i..i + 4] == s[i..i + 2] + s[i + 2..i + 2 + 2];
    }
  }

  /** What `%m` matched spells its value. */
  lemma MonthSpelled(s: string, i: nat)
    ensures var r := MatchMonth(s, i); r.Some? ==> SpellsTwo(s[i..r.value.next], r.value.value)
  {
    if CharIn(s, i, '0', '9') && CharIn(s, i + 1, '0', '9') { TwoDigitsSpelled(s, i); }
    if CharIn(s, i, '0', '9') { OneDigitSpelled(s, i); }
  }

  /** What `%d` matched spells its value. */
  lemma DaySpelled(s: string, i: nat)
    ensures var r := MatchDay(s, i); r.Some? ==> SpellsDay(s[i..r.value.next], r.value.value)
  {
    if CharIn(s, i, '0', '9') && CharIn(s, i + 1, '0', '9') { TwoDigitsSpelled(s, i); }
    if CharIn(s, i, '0', '9') { OneDigitSpelled(s, i); }
    if CharIs(s, i, ' ') && CharIn(s, i + 1, '1', '9') {
      OneDigitSpelled(s, i + 1);
      assert s[i..i + 2] == [' ', s[i + 1]];
    }
  }

  /** What `%H` matched spells its value. */
  lemma HourSpelled(s: string, i: nat)
    ensures var r := MatchHour(s, i); r.Some? ==> SpellsTwo(s[i..r.value.next], r.value.value)
  {
    if CharIn(s, i, '0', '9') && CharIn(s, i + 1, '0', '9') { TwoDigitsSpelled(s, i); }
    if CharIn(s, i, '0', '9') { OneDigitSpelled(s, i); }
  }

  /** What `%M` matched spells its value. */
  lemma MinuteSpelled(s: string, i: nat)
    ensures var r := MatchMinute(s, i); r.Some? ==> SpellsTwo(s[i..r.value.next], r.value.value)
  {
    if CharIn(s, i, '0', '9') && CharIn(s, i + 1, '0', '9') { TwoDigitsSpelled(s, i); }
    if CharIn(s, i, '0', '9') { OneDigitSpelled(s, i); }
  }

  /** What `%S` matched spells its value. */
  lemma SecondSpelled(s: string, i: nat)
    ensures var r := MatchSecond(s, i); r.Some? ==> SpellsTwo(s[i..r.value.next], r.value.value)
  {
    if CharIn(s, i, '0', '9') && CharIn(s, i + 1, '0', '9') { TwoDigitsSpelled(s, i); }
    if CharIn(s, i, '0', '9') { OneDigitSpelled(s, i); }
  }

  /** `%m` reads any spelling of a month that is not followed by a digit. */
  lemma MonthReads(s: string, i: nat, j: nat, v: nat)
    requires 1 <= v <= 12 && i <= j <= |s| && SpellsTwo(s[i..j], v)
    requires j == |s| || !IsDigit(s[j])
    ensures MatchMonth(s, i) == Some(Field(v, j))
  {
    if j - i == 2 { TwoDigitsRead(s, i, v); } else { OneDigitRead(s, i, v); }
  }

  /** `%d` reads any spelling of a day that is not followed by a digit. */
  lemma DayReads(s: string, i: nat, j: nat, v: nat)
    requires 1 <= v <= 31 && i <= j <= |s| && SpellsDay(s[i..j], v)
    requires j == |s| || !IsDigit(s[j])
    ensures MatchDay(s, i) == Some(Field(v, j))
  {
    if SpellsTwo(s[i..j], v) {
      if j - i == 2 { TwoDigitsRead(s, i, v); } else { OneDigitRead(s, i, v); }
    } else {
      assert s[i] == s[i..j][0] && s[i + 1] == s[i..j][1];
    }
  }

  /** `%H` reads any spelling of an hour that is not followed by a digit. */
  lemma HourReads(s: string, i: nat, j: nat, v: nat)
    requires v < 24 && i <= j <= |s| && SpellsTwo(s[i..j], v)
    requires j == |s| || !IsDigit(s[j])
    ensures MatchHour(s, i) == Some(Field(v, j))
  {
    if j - i == 2 { TwoDigitsRead(s, i, v); } else { OneDigitRead(s, i, v); }
  }

  /** `%M` reads any spelling of a minute that is not followed by a digit. */
  lemma MinuteReads(s: string, i: nat, j: nat, v: nat)
    requires v < 60 && i <= j <= |s| && SpellsTwo(s[i..j], v)
    requires j == |s| || !IsDigit(s[j])
    ensures MatchMinute(s, i) == Some(Field(v, j))
  {
    if j - i == 2 { TwoDigitsRead(s, i, v); } else { OneDigitRead(s, i, v); }
  }

  /** `%S` reads any spelling of a second below 60 that is not followed by a digit. */
  lemma SecondReads(s: string, i: nat, j: nat, v: nat)
    requires v < 60 && i <= j <= |s| && SpellsTwo(s[i..j], v)
    requires j == |s| || !IsDigit(s[j])
    ensures MatchSecond(s, i) == Some(Field(v, j))
  {
    if j - i == 2 { TwoDigitsRead(s, i, v); } else { OneDigitRead(s, i, v); }
  }

  /** What the `%Y-%m-%d` matcher consumed spells the date it read. */
  lemma MatchDateSpelled(s: string, i: nat)
    ensures var r := MatchDate(s, i); r.Some? ==> i <= r.value.1 && SpellsDate(s[i..r.value.1], r.value.0)
  {
    var r := MatchDate(s, i);
    if r.Some? {
      var y := MatchYear(s, i).value;
      var m := MatchMonth(s, i + 5).value;
      var dd := MatchDay(s, m.next + 1).value;
      YearSpelled(s, i);
      MonthSpelled(s, i + 5);
      DaySpelled(s, m.next + 1);
      Join5(s, i, i + 4, m.next, dd.next);
    }
  }

  /** `s[i..j]` cut at the positions `p` and `q`, which it keeps in between. */
  lemma Join5(s: string, i: nat, p: nat, q: nat, j: nat)
    requires i <= p < q < j <= |s|
    ensures s[i..j] == s[i..p] + [s[p]] + s[p + 1..q] + [s[q]] + s[q + 1..j]
  {
  }

  /** Where `u + [c] + v` lies in `s` at `i`, its three parts lie one after another. */
  lemma Layout(s: string, i: nat, u: string, c: char, v: string)
    requires i + |u| + 1 + |v| <= |s| && s[i..i + |u| + 1 + |v|] == u + [c] + v
    ensures s[i..i + |u|] == u && s[i + |u|] == c && s[i + |u| + 1..i + |u| + 1 + |v|] == v
  {
    SplitSlice(s, i, u + [c], v);
    SplitSlice(s, i, u, [c]);
    assert s[i + |u|] == s[i + |u|..i + |u| + 1][0];
  }

  /** Where `u + [a] + v + [b] + w` lies in `s` at `i`, its five parts lie one after another. */
  lemma Layout5(s: string, i: nat, j: nat, u: string, a: char, v: string, b: char, w: string)
    requires i <= j <= |s| && s[i..j] == u + [a] + v + [b] + w
    ensures var p, q := i + |u|, i + |u| + 1 + |v|;
      q < j && s[i..p] == u && s[p] == a && s[p + 1..q] == v && s[q] == b && s[q + 1..j] == w
  {
    Layout(s, i, u + [a] + v, b, w);
    Layout(s, i, u, a, v);
  }

  /** A spelling of a date lying in `s` between `i` and `j`, cut at its two hyphens `p - 1` and `q`. */
  lemma DateSplit(s: string, i: nat, j: nat, d: Date) returns (p: nat, q: nat)
    requires i <= j <= |s| && SpellsDate(s[i..j], d)
    ensures p == i + 5 && p <= q < j
    ensures s[i..i + 4] == Pad4(d.year) && s[i + 4] == '-' && SpellsTwo(s[p..q], d.month)
    ensures s[q] == '-' && SpellsDay(s[q + 1..j], d.day)
  {
    var mt, dt :| s[i..j] == Pad4(d.year) + "-" + mt + "-" + dt && SpellsTwo(mt, d.month) && SpellsDay(dt, d.day);
    p, q := i + 5, i + 5 + |mt|;
    Layout5(s, i, j, Pad4(d.year), '-', mt, '-', dt);
  }

  /** The `%Y-%m-%d` matcher reads any spelling of a date that is not followed by a digit. */
  lemma MatchDateReads(s: string, i: nat, j: nat, d: Date)
    requires 1 <= d.month <= 12 && 1 <= d.day <= 31
    requires i <= j <= |s| && SpellsDate(s[i..j], d)
    requires j == |s| || !IsDigit(s[j])
    ensures MatchDate(s, i) == Some((d, j))
  {
    var p, q := DateSplit(s, i, j, d);
    YearRead(s, i, d.year);
    MonthReads(s, p, q, d.month);
    DayReads(s, q + 1, j, d.day);
    assert MatchYear(s, i) == Some(Field(d.year, i + 4)) && CharIs(s, i + 4, '-');
    assert MatchMonth(s, p) == Some(Field(d.month, q)) && CharIs(s, q, '-');
  }

  /** What the `%H:%M:%S` matcher consumed spells the time it read. */
  lemma MatchClockSpelled(s: string, i: nat)
    ensures var r := MatchClock(s, i); r.Some? ==> i <= r.value.1 <= |s| && SpellsClock(s[i..r.value.1], r.value.0)
  {
    var r := MatchClock(s, i);
    if r.Some? {
      var h := MatchHour(s, i).value;
      var m := MatchMinute(s, h.next + 1).value;
      var sec := MatchSecond(s, m.next + 1).value;
      HourSpelled(s, i);
      MinuteSpelled(s, h.next + 1);
      SecondSpelled(s, m.next + 1);
      Join5(s, i, h.next, m.next, sec.next);
    }
  }

  /** The `%H:%M:%S` matcher strings its three fields together over the two colons. */
  lemma MatchClockFields(s: string, i: nat, h: Field, m: Field, sec: Field)
    requires MatchHour(s, i) == Some(h) && CharIs(s, h.next, ':')
    requires MatchMinute(s, h.next + 1) == Some(m) && CharIs(s, m.next, ':')
    requires MatchSecond(s, m.next + 1) == Some(sec)
    ensures MatchClock(s, i) == Some((Clock(h.value, m.value, sec.value), sec.next))
  {
  }

  /** A spelling of a time lying in `s` between `i` and `j`, cut at its two colons `p` and `q`. */
  lemma ClockSplit(s: string, i: nat, j: nat, c: Clock) returns (p: nat, q: nat)
    requires i <= j <= |s| && SpellsClock(s[i..j], c)
    ensures i <= p < q < j
    ensures SpellsTwo(s[i..p], c.hour) && s[p] == ':' && SpellsTwo(s[p + 1..q], c.minute)
    ensures s[q] == ':' && SpellsTwo(s[q + 1..j], c.second)
  {
    var ht, mt, st :| s[i..j] == ht + ":" + mt + ":" + st
      && SpellsTwo(ht, c.hour) && SpellsTwo(mt, c.minute) && SpellsTwo(st, c.second);
    p, q := i + |ht|, i + |ht| + 1 + |mt|;
    Layout5(s, i, j, ht, ':', mt, ':', st);
  }

  /** The `%H:%M:%S` matcher reads any spelling of a time that is not followed by a digit. */
  lemma MatchClockReads(s: string, i: nat, j: nat, c: Clock)
    requires ValidClock(c)
    requires i <= j <= |s| && SpellsClock(s[i..j], c)
    requires j == |s| || !IsDigit(s[j])
    ensures MatchClock(s, i) == Some((c, j))
  {
    var p, q := ClockSplit(s, i, j, c);
    HourReads(s, i, p, c.hour);
    MinuteReads(s, p + 1, q, c.minute);
    SecondReads(s, q + 1, j, c.second);
    assert CharIs(s, p, ':') && CharIs(s, q, ':');
    MatchClockFields(s, i, Field(c.hour, p), Field(c.minute, q), Field(c.second, j));
  }

  /** `\s+` runs to the end of a stretch of whitespace. */
  lemma {:induction false} SkipSpacesRun(s: string, i: nat, j: nat)
    requires i <= j <= |s| && forall k :: i <= k < j ==> IsSpace(s[k])
    requires j == |s| || !IsSpace(s[j])
    ensures SkipSpaces(s, i) == j
    decreases j - i
  {
    if i < j {
      SkipSpacesRun(s, i + 1, j);
    }
  }

  /** `strptime(s, '%Y-%m-%d')` succeeds with `d` exactly when `s` spells the valid date `d` in that format. */
  lemma DateParsesIffSpelled(s: string, d: Date)
    ensures ParseDate(s) == Some(d) <==> ValidDate(d) && SpellsDate(s, d)
  {
    MatchDateSpelled(s, 0);
    assert s[0..|s|] == s;
    if ValidDate(d) && SpellsDate(s, d) {
      MatchDateReads(s, 0, |s|, d);
    }
  }

  /** `strptime(s, '%H:%M:%S')` succeeds with `c` exactly when `s` spells the valid time `c` in that format. */
  lemma TimeParsesIffSpelled(s: string, c: Clock)
    ensures ParseTime(s) == Some(c) <==> ValidClock(c) && SpellsClock(s, c)
  {
    MatchClockSpelled(s, 0);
    assert s[0..|s|] == s;
    if ValidClock(c) && SpellsClock(s, c) {
      MatchClockReads(s, 0, |s|, c);
    }
  }

  /** A date spelled up to `j`, whitespace from `j` to `k` and a time spelled from `k` on spell a timestamp. */
  lemma TimestampJoin(s: string, j: nat, k: nat, d: Date, c: Clock)
    requires j < k <= |s| && SpellsDate(s[0..j], d) && SpellsClock(s[k..|s|], c)
    requires forall x :: j <= x < k ==> IsSpace(s[x])
    ensures SpellsTimestamp(s, d, c)
  {
  }

  /** A spelling of a time starts with a digit. */
  lemma SpellsClockStartsWithDigit(t: string, c: Clock)
    requires SpellsClock(t, c)
    ensures |t| > 0 && IsDigit(t[0])
  {
    var ht, mt, st :| t == ht + ":" + mt + ":" + st
      && SpellsTwo(ht, c.hour) && SpellsTwo(mt, c.minute) && SpellsTwo(st, c.second);
    SpellsTwoStartsWithDigit(ht, c.hour);
    assert t[0] == ht[0];
  }

  /** A spelling of a timestamp, cut where its run of whitespace begins and ends. */
  lemma TimestampSplit(s: string, d: Date, c: Clock) returns (j: nat, k: nat)
    requires SpellsTimestamp(s, d, c)
    ensures j < k < |s| && SpellsDate(s[0..j], d) && SpellsClock(s[k..|s|], c)
    ensures forall x :: j <= x < k ==> IsSpace(s[x])
    ensures IsDigit(s[k])
  {
    j, k :| 0 <= j < k <= |s| && SpellsDate(s[0..j], d) && SpellsClock(s[k..|s|], c)
      && forall x :: j <= x < k ==> IsSpace(s[x]);
    SpellsClockStartsWithDigit(s[k..|s|], c);
  }

  /** A successful timestamp parse read a date, a run of whitespace and a time, and nothing else. */
  lemma TimestampParseSpelled(s: string, d: Date, c: Clock)
    requires ParseTimestamp(s) == Some((d, c))
    ensures SpellsTimestamp(s, d, c)
  {
    var j := MatchDate(s, 0).value.1;
    var k := SkipSpaces(s, j);
    assert j < k && MatchDate(s, 0).value.0 == d;
    assert MatchClock(s, k) == Some((c, |s|));
    MatchDateSpelled(s, 0);
    MatchClockSpelled(s, k);
    TimestampJoin(s, j, k, d, c);
  }

  /** The timestamp parser strings together a date, a run of whitespace and a time that ends the text. */
  lemma TimestampOfParts(s: string, j: nat, k: nat, d: Date, c: Clock)
    requires ValidDate(d) && ValidClock(c) && j < k
    requires MatchDate(s, 0) == Some((d, j)) && SkipSpaces(s, j) == k && MatchClock(s, k) == Some((c, |s|))
    ensures ParseTimestamp(s) == Some((d, c))
  {
  }

  /** Any spelling of a valid date and time in the timestamp format parses back to them. */
  lemma TimestampSpellingParses(s: string, d: Date, c: Clock)
    requires ValidDate(d) && ValidClock(c) && SpellsTimestamp(s, d, c)
    ensures ParseTimestamp(s) == Some((d, c))
  {
    var j, k := TimestampSplit(s, d, c);
    MatchDateReads(s, 0, j, d);
    SkipSpacesRun(s, j, k);
    MatchClockReads(s, k, |s|, c);
    TimestampOfParts(s, j, k, d, c);
  }

  /**
   * `strptime(s, '%Y-%m-%d %H:%M:%S')` succeeds with `(d, c)` exactly when `s`
   * spells the valid date and time in that format.
   */
  lemma TimestampParsesIffSpelled(s: string, d: Date, c: Clock)
    ensures ParseTimestamp(s) == Some((d, c)) <==> ValidDate(d) && ValidClock(c) && SpellsTimestamp(s, d, c)
  {
    if ParseTimestamp(s) == Some((d, c)) {
      TimestampParseSpelled(s, d, c);
    }
    if ValidDate(d) && ValidClock(c) && SpellsTimestamp(s, d, c) {
      TimestampSpellingParses(s, d, c);
    }
  }
}

=== FILE: text.dfy ===
/** The handful of Python `str` operations the client relies on, on `seq<char>`. */
module Text {

  /** `p` is a prefix of `s` (`s.startswith(p)`). */
  predicate StartsWith(s: string, p: string) {
    |p| <= |s| && s[..|p|] == p
  }

  /** `s.endswith(p)`. */
  predicate EndsWith(s: string, p: string) {
    |p| <= |s| && s[|s| - |p|..] == p
  }

  /** `s.endswith(p)` holds exactly when `s` is some text followed by `p`. */
  lemma EndsWithIffSuffix(s: string, p: string)
    ensures EndsWith(s, p) <==> exists u :: s == u + p
  {
    if EndsWith(s, p) {
      assert s == s[..|s| - |p|] + p;
    }
    if exists u :: s == u + p {
      var u :| s == u + p;
      assert s[|s| - |p|..] == p;
    }
  }

  /** `t in s` for two strings: `t` occurs in `s` as a contiguous substring. */
  predicate Contains(s: string, t: string)
    decreases |s|
  {
    StartsWith(s, t) || (|s| > 0 && Contains(s[1..], t))
  }

  /** `t` sits in `s` at offset `i`. */
  predicate OccursAt(s: string, t: string, i: int) {
    0 <= i && i + |t| <= |s| && s[i..i + |t|] == t
  }

  /** The scan above finds `t` exactly when `t` sits at some offset of `s`. */
  lemma {:induction false} ContainsIffOccurs(s: string, t: string)
    ensures Contains(s, t) <==> exists i :: OccursAt(s, t, i)
    decreases |s|
  {
    if StartsWith(s, t) {
      assert OccursAt(s, t, 0);
    } else if |s| > 0 {
      ContainsIffOccurs(s[1..], t);
      if exists i :: OccursAt(s[1..], t, i) {
        var i :| OccursAt(s[1..], t, i);
        assert s[i + 1..i + 1 + |t|] == s[1..][i..i + |t|];
        assert OccursAt(s, t, i + 1);
      }
      if exists i :: OccursAt(s, t, i) {
        var i :| OccursAt(s, t, i);
        assert i != 0 by { assert s[..|t|] == s[0..0 + |t|]; }
        assert s[1..][i - 1..i - 1 + |t|] == s[i..i + |t|];
        assert OccursAt(s[1..], t, i - 1);
      }
    }
  }

  /** `c.isspace()` for the characters below U+0080, which is also what `\s` matches there. */
  predicate IsSpace(c: char) {
    c == ' ' || c == '\t' || c == '\n' || c == '\r' || c == '\U{0B}' || c == '\U{0C}'
    || ('\U{1C}' <= c <= '\U{1F}')
  }

  predicate IsDigit(c: char) {
    '0' <= c <= '9'
  }

  function DigitValue(c: char): (d: nat)
    requires IsDigit(c)
    ensures d < 10
  {
    (c as int - '0' as int) as nat
  }

  function DigitChar(d: nat): (c: char)
    requires d < 10
    ensures IsDigit(c) && DigitValue(c) == d
  {
    ('0' as int + d) as char
  }

  /** The number a run of ASCII digits denotes, most significant first. */
  function DigitsValue(s: string): nat
    requires forall i :: 0 <= i < |s| ==> IsDigit(s[i])
  {
    if s == [] then 0 else DigitsValue(s[..|s| - 1]) * 10 + DigitValue(s[|s| - 1])
  }

  /** `str(n)` for a natural number: its shortest decimal spelling. */
  function NatToString(n: nat): (s: string)
    ensures |s| > 0 && forall i :: 0 <= i < |s| ==> IsDigit(s[i])
  {
    if n < 10 then [DigitChar(n)] else NatToString(n / 10) + [DigitChar(n % 10)]
  }

  /** `str(n)` for a Python integer. */
  function IntToString(n: int): (s: string)
    ensures |s| > 0
  {
    if n < 0 then "-" + NatToString(-n) else NatToString(n)
  }

  /** Reading the decimal spelling of `n` gives `n` back. */
  lemma {:induction false} NatToStringValue(n: nat)
    ensures DigitsValue(NatToString(n)) == n
  {
    var s := NatToString(n);
    if n >= 10 {
      NatToStringValue(n / 10);
      assert s[..|s| - 1] == NatToString(n / 10);
    }
  }

  /** ASCII lower-casing of one character. */
  function LowerChar(c: char): char {
    if 'A' <= c <= 'Z' then (c as int + 32) as char else c
  }

  /**
   * `s.lower()` on the ASCII letters. Comparing the result with "true" or "1"
   * is exact: no character outside ASCII lower-cases to one of those letters.
   */
  function AsciiLower(s: string): (r: string)
    ensures |r| == |s|
    ensures forall i :: 0 <= i < |s| ==> r[i] == LowerChar(s[i])
  {
    if s == [] then [] else [LowerChar(s[0])] + AsciiLower(s[1..])
  }
}

=== FILE: types.dfy ===
/**
 * Coercion of one wire scalar to a Python value by its column's type tag
 * (`convert_to_python_type`). Tags are matched exactly: "INTEGER" is an integer
 * type, "Integer" is unsupported.
 */
module Types {
  import opened Wrappers
  import opened Text
  import opened Strptime

  /** A string or number scalar of the response, the only kinds a row or the schema keeps. */
  datatype Scalar = Str(s: string) | Num(n: int)

  /** `str(x)` of a scalar. */
  function Show(x: Scalar): string {
    match x
    case Str(s) => s
    case Num(n) => IntToString(n)
  }

  /**
   * A converted value. Floats, decimals and UUIDs are built by library
   * constructors this model does not open up: they keep the raw scalar.
   */
  datatype Value =
    | PyInt(i: int)
    | PyFloat(raw: Scalar)
    | PyDecimal(raw: Scalar)
    | PyBool(b: bool)
    | PyDate(date: Date)
    | PyTime(time: Clock)
    | PyDateTime(date: Date, time: Clock)
    | PyUuid(raw: Scalar)
    | PyBytes(bytes: seq<bv8>)
    | PyStr(s: string)
    | PyNone

  /** The Python exception classes the client can raise. `Exception` itself is `PlainException`. */
  datatype PyException = ValueError | TypeError | AttributeError | IndexError | StopIteration | PlainException

  /**
   * Why a conversion raised: an unknown tag (a ValueError the code raises itself),
   * or the library conversion for the tag refused the raw scalar with the
   * exception class it raises.
   */
  datatype ConvError = Unsupported(dataType: Scalar) | Rejected(raised: PyException, tag: string, raw: Scalar)

  function UnsupportedMessage(dataType: Scalar): string {
    "Unsupported data type: " + Show(dataType)
  }

  const IntegerTags: seq<string> := ["TINYINT", "SMALLINT", "INTEGER", "BIGINT"]

  /** Every tag some branch of the conversion answers to. */
  const SupportedTags: seq<string> :=
    IntegerTags + ["FLOAT", "DOUBLE", "DECIMAL", "NUMERIC", "BOOLEAN", "DATE", "TIME",
                   "TIMESTAMP", "UUID", "BINARY", "VARCHAR", "NULL"]

  /**
   * The whitespace `int()` skips around the number: the six ASCII spaces of C's
   * `isspace`. The separators U+001C to U+001F, which `str.isspace()` accepts,
   * are not among them.
   */
  predicate IntSpace(c: char) {
    c == ' ' || c == '\t' || c == '\n' || c == '\r' || c == '\U{0B}' || c == '\U{0C}'
  }

  function TrimStart(s: string): (r: string)
    ensures |r| <= |s| && r == s[|s| - |r|..]
    ensures r == [] || !IntSpace(r[0])
  {
    if s != [] && IntSpace(s[0]) then TrimStart(s[1..]) else s
  }

  function TrimEnd(s: string): (r: string)
    ensures |r| <= |s| && r == s[..|r|]
    ensures r == [] || !IntSpace(r[|r| - 1])
  {
    if s != [] && IntSpace(s[|s| - 1]) then TrimEnd(s[..|s| - 1]) else s
  }

  /** Digits with single underscores between them, as `int()` accepts after the sign. */
  predicate DigitGroups(u: string) {
    && |u| > 0 && IsDigit(u[0]) && IsDigit(u[|u| - 1])
    && (forall i :: 0 <= i < |u| ==> IsDigit(u[i]) || u[i] == '_')
    && (forall i :: 0 <= i < |u| - 1 && u[i] == '_' ==> u[i + 1] != '_')
  }

  function DropUnderscores(u: string): (r: string)
    requires forall i :: 0 <= i < |u| ==> IsDigit(u[i]) || u[i] == '_'
    ensures forall i :: 0 <= i < |r| ==> IsDigit(r[i])
    ensures (forall i :: 0 <= i < |u| ==> IsDigit(u[i])) ==> r == u
  {
    if u == [] then []
    else (if u[0] == '_' then [] else [u[0]]) + DropUnderscores(u[1..])
  }

  /** The digits after the sign, as `int()` reads them. */
  function GroupsValue(body: string): Option<nat> {
    if DigitGroups(body) then Some(DigitsValue(DropUnderscores(body))) else None
  }

  /** `int()` on text already stripped of surrounding whitespace: an optional sign, then digit groups. */
  function ParseStripped(t: string): Option<int> {
    var signed := |t| > 0 && (t[0] == '-' || t[0] == '+');
    var groups := GroupsValue(if signed then t[1..] else t);
    if groups.None? then None
    else if signed && t[0] == '-' then Some(-(groups.value as int))
    else Some(groups.value as int)
  }

  /** The whitespace `int()` skips on both sides of the number. */
  function Strip(s: string): string {
    TrimEnd(TrimStart(s))
  }

  /**
   * `int(s)` for a string: None where Python raises ValueError. Blank text is
   * refused, and only a leading minus sign gives a negative number.
   */
  function ParseInt(s: string): (r: Option<int>)
    ensures Strip(s) == [] ==> r.None?
    ensures r.Some? && r.value < 0 ==> Strip(s)[0] == '-'
  {
    ParseStripped(Strip(s))
  }

  /** Text that neither starts nor ends with whitespace is left as it is by the stripping `int()` does. */
  lemma TrimUnchanged(s: string)
    requires s != [] && !IntSpace(s[0]) && !IntSpace(s[|s| - 1])
    ensures Strip(s) == s
  {
  }

  /** A run of plain digits is a well-formed digit group with nothing to drop. */
  lemma PlainDigits(digits: string)
    requires |digits| > 0 && forall i :: 0 <= i < |digits| ==> IsDigit(digits[i])
    ensures GroupsValue(digits) == Some(DigitsValue(digits))
  {
    assert DigitGroups(digits);
  }

  lemma StripUnchangedParse(s: string)
    requires Strip(s) == s
    ensures ParseInt(s) == ParseStripped(s)
  {
  }

  lemma ParseStrippedNegative(t: string, v: nat)
    requires |t| > 0 && t[0] == '-' && GroupsValue(t[1..]) == Some(v)
    ensures ParseStripped(t) == Some(-(v as int))
  {
  }

  lemma ParseStrippedPlus(t: string, v: nat)
    requires |t| > 0 && t[0] == '+' && GroupsValue(t[1..]) == Some(v)
    ensures ParseStripped(t) == Some(v as int)
  {
  }

  lemma ParseStrippedUnsigned(t: string, v: nat)
    requires |t| > 0 && IsDigit(t[0]) && GroupsValue(t) == Some(v)
    ensures ParseStripped(t) == Some(v as int)
  {
  }

  lemma {:induction false} TrimStartPadding(pre: string, t: string)
    requires forall i :: 0 <= i < |pre| ==> IntSpace(pre[i])
    ensures TrimStart(pre + t) == TrimStart(t)
    decreases |pre|
  {
    if pre != [] {
      assert (pre + t)[1..] == pre[1..] + t;
      TrimStartPadding(pre[1..], t);
    } else {
      assert pre + t == t;
    }
  }

  lemma {:induction false} TrimEndPadding(t: string, post: string)
    requires forall i :: 0 <= i < |post| ==> IntSpace(post[i])
    ensures TrimEnd(t + post) == TrimEnd(t)
    decreases |post|
  {
    if post != [] {
      var post' := post[..|post| - 1];
      assert (t + post)[..|t + post| - 1] == t + post';
      TrimEndPadding(t, post');
    } else {
      assert t + post == t;
    }
  }

  /** Trimming the front of `t` and then the trailing padding: the padding goes, unless `t` was blank. */
  lemma {:induction false} TrimStartAppend(t: string, post: string)
    ensures TrimStart(t + post) == if TrimStart(t) == [] then TrimStart(post) else TrimStart(t) + post
    decreases |t|
  {
    if t == [] {
      assert t + post == post;
    } else {
      assert (t + post)[0] == t[0];
      assert (t + post)[1..] == t[1..] + post;
      TrimStartAppend(t[1..], post);
    }
  }

  lemma BlankTrimmed(s: string)
    requires forall i :: 0 <= i < |s| ==> IntSpace(s[i])
    ensures TrimStart(s) == []
  {
  }

  /** `int()` ignores whitespace padding on either side: `int(pad + s + pad) == int(s)`. */
  lemma ParseIntIgnoresPadding(pre: string, s: string, post: string)
    requires forall i :: 0 <= i < |pre| ==> IntSpace(pre[i])
    requires forall i :: 0 <= i < |post| ==> IntSpace(post[i])
    ensures ParseInt(pre + s + post) == ParseInt(s)
  {
    assert pre + s + post == pre + (s + post);
    TrimStartPadding(pre, s + post);
    TrimStartAppend(s, post);
    if TrimStart(s) == [] {
      BlankTrimmed(post);
    } else {
      TrimEndPadding(TrimStart(s), post);
    }
  }

  /**
   * A first character that is neither `int()`'s whitespace, a sign nor a digit
   * makes `int()` raise; the separator U+001C is one.
   */
  lemma ParseIntRefusesStrayLead(c: char, rest: string)
    requires !IntSpace(c) && !IsDigit(c) && c != '-' && c != '+'
    ensures ParseInt([c] + rest).None?
  {
    var t := Strip([c] + rest);
    assert TrimStart([c] + rest) == [c] + rest;
    if t != [] {
      assert t[0] == c;
    }
  }

  /** `int()` reads a run of decimal digits as the number it spells. */
  lemma {:induction false} ParseIntOfDigits(digits: string, v: nat)
    requires |digits| > 0 && forall i :: 0 <= i < |digits| ==> IsDigit(digits[i])
    requires v == DigitsValue(digits)
    ensures ParseInt(digits) == Some(v as int)
  {
    PlainDigits(digits);
    TrimUnchanged(digits);
    StripUnchangedParse(digits);
    ParseStrippedUnsigned(digits, v);
  }

  /** `int()` reads a minus sign and a run of decimal digits as the negated number the digits spell. */
  lemma {:induction false} ParseIntOfNegatedDigits(digits: string, v: nat)
    requires |digits| > 0 && forall i :: 0 <= i < |digits| ==> IsDigit(digits[i])
    requires v == DigitsValue(digits)
    ensures ParseInt("-" + digits) == Some(-(v as int))
  {
    var s := "-" + digits;
    PlainDigits(digits);
    assert s[0] == '-' && s[1..] == digits && s[|s| - 1] == digits[|digits| - 1];
    TrimUnchanged(s);
    StripUnchangedParse(s);
    ParseStrippedNegative(s, v);
  }

  /** `int()` reads a plus sign and a run of decimal digits as the number the digits spell. */
  lemma {:induction false} ParseIntOfPlusDigits(digits: string, v: nat)
    requires |digits| > 0 && forall i :: 0 <= i < |digits| ==> IsDigit(digits[i])
    requires v == DigitsValue(digits)
    ensures ParseInt("+" + digits) == Some(v as int)
  {
    var s := "+" + digits;
    PlainDigits(digits);
    assert s[0] == '+' && s[1..] == digits && s[|s| - 1] == digits[|digits| - 1];
    TrimUnchanged(s);
    StripUnchangedParse(s);
    ParseStrippedPlus(s, v);
  }

  /** `int(str(n)) == n`. */
  lemma {:induction false} ParseIntRoundTrip(n: int)
    ensures ParseInt(IntToString(n)) == Some(n)
  {
    if n < 0 {
      NatToStringValue(-n);
      ParseIntOfNegatedDigits(NatToString(-n), -n);
    } else {
      NatToStringValue(n);
      ParseIntOfDigits(NatToString(n), n);
    }
  }

  /** The spellings `value.lower() in ['true', '1']` accepts, listed without lower-casing. */
  predicate SpellsTrue(s: string) {
    s == "1"
    || (|s| == 4 && (s[0] == 't' || s[0] == 'T') && (s[1] == 'r' || s[1] == 'R')
        && (s[2] == 'u' || s[2] == 'U') && (s[3] == 'e' || s[3] == 'E'))
  }

  /** `int(value)`: a number is already an integer; text is read by `int()`, which raises ValueError. */
  function IntegerOf(value: Scalar, tag: string): (r: Result<Value, ConvError>)
    ensures value.Num? ==> r == Success(PyInt(value.n))
    ensures value.Str? ==> (r.Success? <==> ParseInt(value.s).Some?)
    ensures value.Str? && r.Success? ==> r.value == PyInt(ParseInt(value.s).value)
    ensures r.Success? ==> r.value.PyInt?
    ensures r.Failure? ==> r.error == Rejected(ValueError, tag, value)
  {
    match value
    case Num(n) => Success(PyInt(n))
    case Str(s) =>
      match ParseInt(s)
      case Some(n) => Success(PyInt(n))
      case None => Failure(Rejected(ValueError, tag, value))
  }

  /** `value.lower() in ['true', '1']`: any text gives a boolean; a number has no `lower` (AttributeError). */
  function BooleanOf(value: Scalar): (r: Result<Value, ConvError>)
    ensures value.Str? ==> r.Success? && r.value.PyBool?
    ensures value.Num? ==> r == Failure(Rejected(AttributeError, "BOOLEAN", value))
  {
    match value
    case Str(s) => Success(PyBool(AsciiLower(s) in ["true", "1"]))
    case Num(_) => Failure(Rejected(AttributeError, "BOOLEAN", value))
  }

  /** The three `strptime` branches: a number is not a string argument (TypeError), unparsable text is a ValueError. */
  function DateTimeOf(value: Scalar, tag: string): (r: Result<Value, ConvError>)
    requires tag == "DATE" || tag == "TIME" || tag == "TIMESTAMP"
    ensures r.Success? && r.value.PyDate? ==> ValidDate(r.value.date)
    ensures r.Success? && r.value.PyTime? ==> ValidClock(r.value.time)
    ensures r.Success? && r.value.PyDateTime? ==> ValidDate(r.value.date) && ValidClock(r.value.time)
    ensures r.Failure? ==> r.error == Rejected(if value.Num? then TypeError else ValueError, tag, value)
    ensures value.Num? ==> r == Failure(Rejected(TypeError, tag, value))
    ensures value.Str? && tag == "DATE" ==>
      (r.Success? <==> ParseDate(value.s).Some?) && (r.Success? ==> r.value == PyDate(ParseDate(value.s).value))
    ensures value.Str? && tag == "TIME" ==>
      (r.Success? <==> ParseTime(value.s).Some?) && (r.Success? ==> r.value == PyTime(ParseTime(value.s).value))
    ensures value.Str? && tag == "TIMESTAMP" ==>
      && (r.Success? <==> ParseTimestamp(value.s).Some?)
      && (r.Success? ==> r.value == PyDateTime(ParseTimestamp(value.s).value.0, ParseTimestamp(value.s).value.1))
  {
    match value
    case Num(_) => Failure(Rejected(TypeError, tag, value))
    case Str(s) =>
      if tag == "DATE" then
        (match ParseDate(s)
         case Some(d) => Success(PyDate(d))
         case None => Failure(Rejected(ValueError, tag, value)))
      else if tag == "TIME" then
        (match ParseTime(s)
         case Some(c) => Success(PyTime(c))
         case None => Failure(Rejected(ValueError, tag, value)))
      else
        (match ParseTimestamp(s)
         case Some(dc) => Success(PyDateTime(dc.0, dc.1))
         case None => Failure(Rejected(ValueError, tag, value)))
  }

  /**
   * `bytearray(value)`: a number is a count of zero bytes and must not be
   * negative (ValueError); a string without an encoding is a TypeError.
   */
  function BinaryOf(value: Scalar): (r: Result<Value, ConvError>)
    ensures r.Success? <==> value.Num? && value.n >= 0
    ensures r.Success? ==> r.value.PyBytes? && |r.value.bytes| == value.n
    ensures r.Success? ==> forall i :: 0 <= i < |r.value.bytes| ==> r.value.bytes[i] == 0
    ensures r.Failure? ==> r.error == Rejected(if value.Str? then TypeError else ValueError, "BINARY", value)
  {
    match value
    case Str(_) => Failure(Rejected(TypeError, "BINARY", value))
    case Num(n) => if n < 0 then Failure(Rejected(ValueError, "BINARY", value)) else Success(PyBytes(seq(n, _ => 0)))
  }

  /** `convert_to_python_type(value, data_type)`. */
  function ConvertToPythonType(value: Scalar, dataType: Scalar): (r: Result<Value, ConvError>)
    ensures r.Success? && r.value.PyDate? ==> ValidDate(r.value.date)
    ensures r.Success? && r.value.PyTime? ==> ValidClock(r.value.time)
    ensures r.Success? && r.value.PyDateTime? ==> ValidDate(r.value.date) && ValidClock(r.value.time)
  {
    if !dataType.Str? then Failure(Unsupported(dataType))
    else
      var tag := dataType.s;
      if tag in IntegerTags then IntegerOf(value, tag)
      else if tag == "FLOAT" || tag == "DOUBLE" then Success(PyFloat(value))
      else if tag == "DECIMAL" || tag == "NUMERIC" then Success(PyDecimal(value))
      else if tag == "BOOLEAN" then BooleanOf(value)
      else if tag == "DATE" || tag == "TIME" || tag == "TIMESTAMP" then DateTimeOf(value, tag)
      else if tag == "UUID" then Success(PyUuid(value))
      else if tag == "BINARY" then BinaryOf(value)
      else if tag == "VARCHAR" then Success(PyStr(Show(value)))
      else if tag == "NULL" then Success(PyNone)
      else Failure(Unsupported(dataType))
  }

  /**
   * Only the sixteen upper-case spellings are supported: any other tag, a
   * different capitalisation or a number included, raises "Unsupported data type".
   */
  lemma {:induction false} UnsupportedIffUnknownTag(value: Scalar, dataType: Scalar)
    ensures ConvertToPythonType(value, dataType) == Failure(Unsupported(dataType))
        <==> !(dataType.Str? && dataType.s in SupportedTags)
  {
  }

  /** The integer tags read the decimal spelling of any integer back as that integer. */
  lemma {:induction false} IntegerTagRoundTrip(n: int, tag: string)
    requires tag in IntegerTags
    ensures ConvertToPythonType(Str(IntToString(n)), Str(tag)) == Success(PyInt(n))
  {
    ParseIntRoundTrip(n);
  }

  /** `value.lower() in ['true', '1']` holds exactly for "1" and the capitalisations of "true". */
  lemma {:induction false} BooleanOfTrueIff(s: string)
    ensures BooleanOf(Str(s)) == Success(PyBool(SpellsTrue(s)))
  {
    var l := AsciiLower(s);
    if l == "true" {
      assert LowerChar(s[0]) == 't' && LowerChar(s[1]) == 'r' && LowerChar(s[2]) == 'u' && LowerChar(s[3]) == 'e';
    }
    if l == "1" {
      assert LowerChar(s[0]) == '1';
    }
    if SpellsTrue(s) && |s| == 4 {
      assert l == "true";
    }
    if s == "1" {
      assert l == "1";
    }
  }

  /** BOOLEAN is true exactly for "1" and the sixteen capitalisations of "true", and false for any other string. */
  lemma BooleanTagTrueIff(s: string)
    ensures ConvertToPythonType(Str(s), Str("BOOLEAN")) == Success(PyBool(SpellsTrue(s)))
  {
    assert ConvertToPythonType(Str(s), Str("BOOLEAN")) == BooleanOf(Str(s));
    BooleanOfTrueIff(s);
  }

  /** The three calendar tags go to `strptime`. */
  lemma CalendarTagDispatch(value: Scalar, tag: string)
    requires tag == "DATE" || tag == "TIME" || tag == "TIMESTAMP"
    ensures ConvertToPythonType(value, Str(tag)) == DateTimeOf(value, tag)
  {
    assert tag !in IntegerTags;
    if tag == "DATE" {
    } else if tag == "TIME" {
    } else {
    }
  }

  /** DATE gives back the day that its ISO spelling names. */
  lemma {:induction false} DateTagRoundTrip(d: Date)
    requires ValidDate(d)
    ensures ConvertToPythonType(Str(FormatDate(d)), Str("DATE")) == Success(PyDate(d))
  {
    CalendarTagDispatch(Str(FormatDate(d)), "DATE");
    DateRoundTrip(d);
  }

  /** DATE refuses a day past the end of its month, such as 30 February. */
  lemma {:induction false} DateTagRejectsDayPastMonthEnd(d: Date)
    requires 1 <= d.year <= 9999 && 1 <= d.month <= 12
    requires DaysInMonth(d.year, d.month) < d.day <= 31
    ensures ConvertToPythonType(Str(FormatDate(d)), Str("DATE")) == Failure(Rejected(ValueError, "DATE", Str(FormatDate(d))))
  {
    CalendarTagDispatch(Str(FormatDate(d)), "DATE");
    DateRejectsDayPastMonthEnd(d);
  }

  /**
   * DATE, TIME and TIMESTAMP accept a string exactly when it spells a valid
   * value in their format, and then give that value.
   */
  lemma CalendarTagsAcceptExactlySpellings(s: string, d: Date, c: Clock)
    ensures ConvertToPythonType(Str(s), Str("DATE")) == Success(PyDate(d)) <==> ValidDate(d) && SpellsDate(s, d)
    ensures ConvertToPythonType(Str(s), Str("TIME")) == Success(PyTime(c)) <==> ValidClock(c) && SpellsClock(s, c)
    ensures ConvertToPythonType(Str(s), Str("TIMESTAMP")) == Success(PyDateTime(d, c))
      <==> ValidDate(d) && ValidClock(c) && SpellsTimestamp(s, d, c)
  {
    CalendarTagDispatch(Str(s), "DATE");
    CalendarTagDispatch(Str(s), "TIME");
    CalendarTagDispatch(Str(s), "TIMESTAMP");
    DateParsesIffSpelled(s, d);
    TimeParsesIffSpelled(s, c);
    TimestampParsesIffSpelled(s, d, c);
  }

  /** DATE raises ValueError for every string that spells no valid date in `%Y-%m-%d`. */
  lemma DateTagRefusesNonSpellings(s: string)
    ensures ConvertToPythonType(Str(s), Str("DATE")) == Failure(Rejected(ValueError, "DATE", Str(s)))
      <==> forall d :: ValidDate(d) ==> !SpellsDate(s, d)
  {
    CalendarTagDispatch(Str(s), "DATE");
    if ParseDate(s).Some? {
      DateParsesIffSpelled(s, ParseDate(s).value);
    } else {
      forall d | ValidDate(d) ensures !SpellsDate(s, d) { DateParsesIffSpelled(s, d); }
    }
  }

  /** TIME raises ValueError for every string that spells no valid time in `%H:%M:%S`. */
  lemma TimeTagRefusesNonSpellings(s: string)
    ensures ConvertToPythonType(Str(s), Str("TIME")) == Failure(Rejected(ValueError, "TIME", Str(s)))
      <==> forall c :: ValidClock(c) ==> !SpellsClock(s, c)
  {
    CalendarTagDispatch(Str(s), "TIME");
    if ParseTime(s).Some? {
      TimeParsesIffSpelled(s, ParseTime(s).value);
    } else {
      forall c | ValidClock(c) ensures !SpellsClock(s, c) { TimeParsesIffSpelled(s, c); }
    }
  }

  /** TIMESTAMP raises ValueError for every string that spells no valid date and time in its format. */
  lemma TimestampTagRefusesNonSpellings(s: string)
    ensures ConvertToPythonType(Str(s), Str("TIMESTAMP")) == Failure(Rejected(ValueError, "TIMESTAMP", Str(s)))
      <==> forall d, c :: ValidDate(d) && ValidClock(c) ==> !SpellsTimestamp(s, d, c)
  {
    CalendarTagDispatch(Str(s), "TIMESTAMP");
    if ParseTimestamp(s).Some? {
      TimestampParsesIffSpelled(s, ParseTimestamp(s).value.0, ParseTimestamp(s).value.1);
    } else {
      forall d, c | ValidDate(d) && ValidClock(c) ensures !SpellsTimestamp(s, d, c) {
        TimestampParsesIffSpelled(s, d, c);
      }
    }
  }

  /** TIME gives back the time of day that its ISO spelling names. */
  lemma {:induction false} TimeTagRoundTrip(c: Clock)
    requires ValidClock(c)
    ensures ConvertToPythonType(Str(FormatClock(c)), Str("TIME")) == Success(PyTime(c))
  {
    CalendarTagDispatch(Str(FormatClock(c)), "TIME");
    TimeRoundTrip(c);
  }

  /** TIMESTAMP gives back the date and time that `str(datetime)` spells. */
  lemma {:induction false} TimestampTagRoundTrip(d: Date, c: Clock)
    requires ValidDate(d) && ValidClock(c)
    ensures ConvertToPythonType(Str(FormatTimestamp(d, c)), Str("TIMESTAMP")) == Success(PyDateTime(d, c))
  {
    CalendarTagDispatch(Str(FormatTimestamp(d, c)), "TIMESTAMP");
    TimestampRoundTrip(d, c);
  }

  /** VARCHAR is `str(value)`: a string unchanged, a number spelled in decimal. */
  lemma VarcharTag(value: Scalar)
    ensures ConvertToPythonType(value, Str("VARCHAR")) == Success(PyStr(Show(value)))
    ensures value.Str? ==> ConvertToPythonType(value, Str("VARCHAR")) == Success(PyStr(value.s))
  {
  }

  /** BINARY is `bytearray(value)`. */
  /** TINYINT, SMALLINT, INTEGER and BIGINT are `int(value)`. */
  lemma IntegerTagDispatch(value: Scalar, tag: string)
    requires tag in IntegerTags
    ensures ConvertToPythonType(value, Str(tag)) == IntegerOf(value, tag)
  {
  }

  /** BOOLEAN is `value.lower() in ['true', '1']`, so a number raises AttributeError. */
  lemma BooleanTag(value: Scalar)
    ensures ConvertToPythonType(value, Str("BOOLEAN")) == BooleanOf(value)
  {
    assert "BOOLEAN" !in IntegerTags;
  }

  lemma BinaryTag(value: Scalar)
    ensures ConvertToPythonType(value, Str("BINARY")) == BinaryOf(value)
  {
  }

  /** NULL is None whatever the value. */
  lemma NullTag(value: Scalar)
    ensures ConvertToPythonType(value, Str("NULL")) == Success(PyNone)
  {
  }

}

=== FILE: wrappers.dfy ===
/** Optional values and results with an error, used for Python's None and raised exceptions. */
module Wrappers {

  datatype Option<+T> = None | Some(value: T) {
    predicate IsFailure() {
      None?
    }

    function PropagateFailure<U>(): Option<U>
      requires None?
    {
      None
    }

    function Extract(): T
      requires Some?
    {
      value
    }
  }

  datatype Result<+R, +E> = Success(value: R) | Failure(error: E)
}
